=== FILE: README.md ===
# HX711 load-cell driver and Hazay cargo-scale controller, modelled in Dafny

This project models the firmware of the Hazay cargo-scale controller
(`pico-main.py`), a MicroPython program for a Raspberry Pi Pico. It covers:

- The HX711 driver class. It clocks 24-bit two's-complement conversions out of
  the HX711 converter over the PD_SCK/DOUT pair. The trailing clock pulses
  select the input channel and gain of the next conversion. The driver keeps
  an offset (tare), a scale and a unit, and turns averaged readings into whole
  grams.
- The persistence of that calibration in two flash files, `tare` and
  `scale_unit`.
- The boot sequence. It restores the saved calibration, or creates it.
- The main loop. It handles the serial `Tare` and `Scale` commands and
  reports `<grams>;hazay_<id_version>` on every pass.

Modules, one per layer of the program:

| file | module | what it holds |
|---|---|---|
| outcomes.dfy | `Outcomes` | `Option`, `Result` and the exception kinds the firmware raises |
| bits.dfy | `Bits` | the 24-bit frame, the MSB-first shift register, and two's complement |
| fractions.dfy | `Fractions` | Python floats as exact fractions |
| text.dfy | `Text` | `str()`, `int()`, `float()`, `strip()`, `split()` and `in` on text |
| hx711.dfy | `Hx711` | the driver object, channel selection, `read`, the wire protocol, and the converter's side of it |
| calibration.dfy | `Calibration` | `read_average`, `tare`, `scale`, `get_value`, `get_units`, and the reading in grams |
| persistence.dfy | `Persistence` | the `tare` and `scale_unit` records in a file store |
| controller.dfy | `Controller` | command parsing, the command dispatcher, boot, and one pass of the loop |

Modelling choices:

- Every operation is a pure function. An operation that changes the driver
  returns the driver afterwards. A Python exception becomes an `Err` value.
  When the source changes state before it raises, the model keeps that
  change: the channel setter stores the new channel before waiting for the
  converter.
- The converter is a `Stream`, the sequence of conversions it offers.
  - Each wait for DOUT to go low consumes one conversion.
  - A `Stalled` conversion, or an exhausted stream, is a wait that runs past
    the five-second ready timeout and raises `DeviceIsNotReady`.
  - A `Ready` conversion carries the 24 DOUT levels the driver samples.
- Clock activity is an explicit trace of `Pulse` and `Sample` actions. The
  converter's decoding of the pulse count (25, 26 or 27 pulses select A/128,
  B/32 or A/64) is modelled as well. This lets the proofs show that the
  selection the driver makes is the one the converter applies.
- Floats are exact fractions. The arithmetic writes every whole result
  with denominator 1, and the model's `str()` writes such a value in the
  form Python uses for a whole float: a tare averaging 200 is saved as
  `200.0`. Any other value is written as `num/den`. That is the model's own
  text format, not the firmware's: the firmware writes rounded decimal
  digits, and the model's `float()` is only shown to read back what the
  model's `str()` wrote.
- The file system is a `map<string, string>` from file name to contents.
- `get_reading_in_unit_grams` reads the module-level global `driver` rather
  than `self` (pico-main.py:223). The firmware has exactly one instance, so
  the model reads the instance's own state.
- `get_units` with a zero scale raises Python's `ZeroDivisionError`, after
  the three reads have been taken. The model follows the code. No dedicated
  calibration exception is raised anywhere in the source.

## Model

| member | source | states |
|---|---|---|
| Bits.FrameConstants | pico-main.py:50-52 | 1 << DATA_BITS is the frame span, 1 << (DATA_BITS-1) is MIN_VALUE, and MAX_VALUE is one below it |
| Bits.ShiftInIsWeight | pico-main.py:169-173 | the read loop's `raw << 1 \| bit` fold yields the MSB-first binary value of the sampled bits |
| Bits.WeightOfBitsOf | pico-main.py:169-173 | the bits a converter shifts out MSB first for a 24-bit pattern are read back as that pattern |
| Bits.SignBitOfPattern | pico-main.py:72 | the `value & (1 << 23)` test holds exactly for patterns at or above 0x800000 |
| Bits.FromTwosComplement | pico-main.py:68-74 | the converted value of a 24-bit pattern lies in [-0x800000, 0x7FFFFF], is negative iff the sign bit is set, and is the pattern itself or the pattern less 2^24 |
| Bits.FromTwosComplementCongruent | pico-main.py:68-74 | the converted value is congruent to the pattern modulo 2^24 |
| Bits.ToTwosComplement | pico-main.py:68-74 | the converter's encoding of a signed result: the result itself when non-negative, the result plus 2^24 when negative |
| Bits.PatternRoundTrip | pico-main.py:68-74 | every 24-bit pattern is recovered by encoding its converted value |
| Bits.ValueRoundTrip | pico-main.py:68-74 | every signed 24-bit result is recovered by converting its encoding |
| Hx711.GainOf | pico-main.py:119-124 | a requested value is accepted iff it is 1, 2 or 3, and the accepted selection issues that many trailing pulses |
| Hx711.SelectPulses | pico-main.py:46-48 | each selection's trailing pulse count, added to the 24 data pulses, is the total the converter decodes as that selection |
| Hx711.GainOfSelectPulses | pico-main.py:46-48 | each of the three channel constants is accepted back as its own selection |
| Hx711.ChannelInfo | pico-main.py:98-109 | the getter reports input A for A/128 and A/64 and input B for B/32, and gain 128, 64 or 32 exactly for A/128, A/64 or B/32 |
| Hx711.ClocksShape | pico-main.py:84-86 | the selection loop issues n clock pulses and takes no sample |
| Hx711.DataClocksShape | pico-main.py:170-173 | the read loop alternates pulse and sample, 24 times |
| Hx711.CountClocks | pico-main.py:84-86 | n bare clock pulses count as n pulses at the converter |
| Hx711.SelectionReachesConverter | pico-main.py:76-86 | 24 data pulses plus the selection pulses make the pulse total the converter decodes as the selected channel and gain |
| Hx711.Read | pico-main.py:160-179 | with no ready conversion, DeviceIsNotReady and no clocking; otherwise the raw pattern (the MSB-first value of the sampled bits, below 2^24) or the two's-complement value of that pattern (in the 24-bit range), the 24 data clocks followed by the selection pulses, and one conversion consumed |
| Hx711.Code | pico-main.py:168-179 | the signed value the driver makes of a ready conversion is the two's-complement value of its bits read most significant first |
| Hx711.ReadClocking | pico-main.py:169-174 | on the wire a read is 24 pulse-then-sample pairs followed by the selection pulses, with no further sample |
| Hx711.CodeOfConverterFrame | pico-main.py:168-179 | the signed value the driver makes of a converter's frame is the result the converter encoded |
| Hx711.ReadRecoversConversion | pico-main.py:160-179 | `read()` returns exactly the signed result the converter sent |
| Hx711.SetChannel | pico-main.py:111-133 | an unsupported value raises InvalidMode with nothing changed; otherwise the channel is stored even if the wait then fails, and success clocks 24 + value pulses with no sample |
| Hx711.SetChannelReachesConverter | pico-main.py:111-133 | after a successful setter call, the converter and the getter both report the requested channel |
| Hx711.Init | pico-main.py:56-63 | construction succeeds iff the channel is supported and a conversion is ready; the driver then has that channel, offset 0, scale 1 and unit 1; an unsupported channel raises InvalidMode with nothing consumed, and a supported one with no ready conversion raises DeviceIsNotReady |
| Hx711.PowerOn | pico-main.py:152-158 | power-on changes no attribute, succeeds iff a conversion is ready and otherwise raises DeviceIsNotReady, and reselects the current channel at the converter |
| Calibration.Truthy | pico-main.py:188-196 | a known tare or scale counts as given exactly when it is present and its value is not zero |
| Calibration.SumReads | pico-main.py:182-184 | the loop's sum is the sum of the signed values of the next `times` conversions, which it consumes, when all are ready, else DeviceIsNotReady |
| Calibration.MeanInRange | pico-main.py:181-185 | an average of conversions lies in the signed 24-bit range |
| Calibration.ReadAverage | pico-main.py:181-185 | the mean of `times` reads in the 24-bit range; ZeroDivision with no reads for 0; 0 with no reads for a negative count; DeviceIsNotReady if a read fails |
| Calibration.Tare | pico-main.py:187-193 | a truthy known tare becomes the offset with no reads; otherwise (zero included) the mean of `times` reads does; the offset is set exactly when the result is returned |
| Calibration.Scale | pico-main.py:195-214 | a truthy known scale is applied with no reads, else mean minus offset; the unit changes only for a truthy known unit; the offset is kept; the known unit is returned as passed |
| Calibration.GetValue | pico-main.py:216-217 | the mean of three reads less the offset |
| Calibration.GetUnits | pico-main.py:219-220 | the value divided by the scale; a zero scale raises ZeroDivision after the three reads |
| Calibration.UnitsOfValue | pico-main.py:219-220 | dividing the value by a non-zero scale gives (mean − offset) / scale |
| Calibration.GetReadingInGrams | pico-main.py:222-223 | never negative; fails iff a read fails or the scale is zero; otherwise the whole grams of the units times UNIT, with the units equal to (mean − offset) / scale |
| Calibration.Grams | pico-main.py:223 | `int(abs(max(x, 0)))` is the largest whole number not above x when x ≥ 0, and 0 below |
| Calibration.GramsClampAtZero | pico-main.py:223 | any weight below one gram, negatives included, reads as 0 |
| Calibration.GramsOfWhole | pico-main.py:223 | a weight of exactly n grams reads as n |
| Calibration.TareOverThree | pico-main.py:187-193 | taring over three ready conversions sets the offset to their mean and returns it |
| Calibration.TareExample | pico-main.py:187-193 | taring over conversions of 100, 200 and 300 sets the offset to 200 |
| Calibration.UnitsOverThree | pico-main.py:216-223 | over three ready conversions and a non-zero scale the units are (mean − offset) / scale and the reading is their whole grams |
| Calibration.ReadingExample | pico-main.py:216-223 | offset 200, three reads of 250, scale 25 and unit 10 read as 20 grams |
| Fractions.Quotient | pico-main.py:185 | true division of the integer sum by the count, exact, with denominator 1 exactly when the quotient is whole |
| Fractions.Minus | pico-main.py:217 | the difference of two floats, with denominator 1 exactly when it is whole |
| Fractions.Over | pico-main.py:220 | the quotient by a non-zero scale, with denominator 1 exactly when it is whole |
| Fractions.Times | pico-main.py:223 | the product of the units and the integer UNIT, with denominator 1 exactly when it is whole |
| Fractions.AtLeastZero | pico-main.py:223 | `max(x, 0)`: its value is the clamped value, never negative, and it is x itself when x is not negative |
| Fractions.Magnitude | pico-main.py:223 | `abs(x)`: non-negative and equal to x or −x |
| Fractions.Truncate | pico-main.py:223 | `int(x)` rounds toward zero, for positive and negative x |
| Fractions.IsZero | pico-main.py:188 | a float is falsy exactly when its value is zero |
| Text.NatTextRoundTrip | pico-main.py:259 | the decimal digits `str()` writes for a natural number parse back to it |
| Text.IntTextRoundTrip | pico-main.py:259 | `str()` of an integer, sign included, parses back to it |
| Text.ParseInt | pico-main.py:314 | `int()` accepts only signs, digits and white space; a run of digits reads as its decimal value, and a minus sign before it negates it |
| Text.ParseIntText | pico-main.py:314 | `int()` of `str(i)` followed by any whitespace is i |
| Text.TrimEndPadding | pico-main.py:314 | stripping removes exactly the trailing whitespace after a number |
| Text.Split | pico-main.py:254 | `split(sep)` gives at least one field, no field holds sep, and the fields joined with sep give back the text |
| Text.SplitWithout | pico-main.py:254 | splitting text without the separator gives the one field |
| Text.SplitAtFirst | pico-main.py:314 | splitting at the first separator gives the text before it, then the split of the rest |
| Text.SplitOfJoin | pico-main.py:254-259 | splitting the join of fields that do not hold the separator gives back those fields |
| Text.Contains | pico-main.py:312 | `t in s` holds exactly when t occurs in s at some position |
| Text.RatText | pico-main.py:240 | `str()` of a float is made of numerals only (no white space, no record separator) and ends in `.0` exactly for a fraction over 1 |
| Text.ParseRat | pico-main.py:236 | whatever `float()` accepts is made of numerals and white space |
| Text.WholeQuotientText | pico-main.py:185-240 | a whole average is written as its digits followed by `.0` |
| Text.MeanTextExample | pico-main.py:185-240 | an average of 3000 over 15 reads is written as `200.0` |
| Text.RatTextRoundTrip | pico-main.py:236-240 | the model's `float()` reads back exactly the value the model's `str()` wrote, for every float |
| Persistence.IsTareSaved | pico-main.py:225-230 | the tare file exists exactly when loading it does not report it missing |
| Persistence.IsScaleUnitSaved | pico-main.py:243-248 | the scale file exists exactly when loading it does not report it missing |
| Persistence.SaveTare | pico-main.py:238-241 | the tare record exists afterwards and every other record is unchanged |
| Persistence.LoadTare | pico-main.py:232-236 | a missing record fails to open; text `float()` rejects raises ValueError; otherwise the result is the float the text parses to |
| Persistence.SaveScaleUnit | pico-main.py:257-260 | the scale record exists afterwards and every other record is unchanged |
| Persistence.ScaleUnitText | pico-main.py:259 | the record text splits at ":" into exactly the scale's text and the unit's text |
| Persistence.LoadScaleUnit | pico-main.py:250-255 | a missing record fails to open; anything but exactly two ":" fields raises ValueError; two fields give the scale `float()` makes of the first and the unit `int()` makes of the second when both parse, and ValueError when either does not |
| Persistence.TareRoundTrip | pico-main.py:232-241 | loading the tare after saving it gives the saved offset |
| Persistence.ScaleUnitRoundTrip | pico-main.py:250-260 | loading the scale record after saving it gives the saved scale and unit |
| Persistence.RecordsIndependent | pico-main.py:238-260 | saving either record leaves the other loading as before |
| Controller.ScaleMass | pico-main.py:314 | a missing ";" or ":" field is an IndexError; otherwise the result is the integer the second ":"-field of the second ";"-field parses to, or ValueError when it does not parse |
| Controller.ParseCommand | pico-main.py:308-314 | the exact tare buffer is a tare; a buffer without the scale token is no command; a buffer with it is a scale command exactly when its mass can be extracted; every error comes from such a buffer and is the IndexError or ValueError the mass extraction raised |
| Controller.ScaleTokenFound | pico-main.py:312 | a buffer holding the scale token is recognised as holding it and is not the tare command |
| Controller.ScaleMassRoundTrip | pico-main.py:314 | the mass of `text;key:mass`, even with a trailing line end, is read back exactly |
| Controller.ScaleCommandRoundTrip | pico-main.py:312-314 | a scale command written as `…Scale…;key:mass`, even with a trailing line end, is read as that mass |
| Controller.TareCommandNeedsExactBuffer | pico-main.py:308 | the tare command followed by a line end is ignored |
| Controller.TareAndSave | pico-main.py:308-310 | succeeds iff 15 conversions are ready; then the offset becomes their mean and the tare file is rewritten with it and nothing else, nothing else in the driver changes, and the scale record loads as before; a failure is DeviceIsNotReady and changes nothing |
| Controller.ScaleAndSave | pico-main.py:312-316 | succeeds iff 15 conversions are ready; then the scale becomes their mean less the offset and the scale file is rewritten with it and the mass and nothing else, the offset, channel and tare record are kept, and the unit changes only for a non-zero mass; a failure is DeviceIsNotReady and changes nothing |
| Controller.Dispatch | pico-main.py:305-317 | no command changes nothing; an unparsable command changes nothing and fails with the error the parser raised; a failure never changes driver or store; a recognised command runs the tare or the scale action |
| Controller.DispatchKeepsPersisted | pico-main.py:309-316 | if store and driver agree before a command, they agree after it, except for a scale command with mass 0 |
| Controller.ZeroMassSavesUnusedUnit | pico-main.py:315-316 | a scale command with mass 0 saves unit 0 while the driver keeps its unit |
| Controller.BootTare | pico-main.py:282-287 | a saved tare is never overwritten; an unreadable tare record raises its ValueError with nothing read; a truthy saved tare is applied with no reads; without a record, or with a saved 0.0, the mean of 15 reads is applied (and saved only when there was no record), and DeviceIsNotReady is raised when 15 conversions are not ready; only the offset changes; on success the offset is the saved tare whenever that is truthy |
| Controller.DefaultScaleUnitText | pico-main.py:294 | the default scale record reads `33150.0:1556` |
| Controller.WithScaleRecord | pico-main.py:292-294 | afterwards the scale record exists; an existing one is kept as it is, a missing one loads as the defaults, and no other file changes |
| Controller.ApplyScaleRecord | pico-main.py:297-298 | a record that failed to load fails before the driver changes; a truthy saved scale is applied with no reads; a saved 0.0 is replaced by the mean of 15 fresh reads less the offset, or DeviceIsNotReady; the saved unit is applied only when non-zero; the offset and channel are kept |
| Controller.BootScale | pico-main.py:291-298 | the scale record exists afterwards and the tare record is untouched; a missing one becomes the default and is applied; an unreadable saved record raises its ValueError; a truthy scale in the record is applied with no reads, a zero one is resampled over 15 reads or raises DeviceIsNotReady; the unit is taken from the record only when non-zero; every failure is DeviceIsNotReady or ValueError |
| Controller.Restore | pico-main.py:281-298 | with no tare record or a saved 0.0, the offset of a successful restore is the mean of the next 15 reads, and a stall among them raises DeviceIsNotReady; success leaves both records present and readable, with the driver's offset, scale and unit equal to the saved ones whenever those are truthy, and a freshly taken tare saved as taken; existing records and all other files are kept; a missing scale record is written with the defaults 33150.0 and 1556; an unreadable tare record raises its ValueError, an unreadable scale record makes boot fail, and every failure is DeviceIsNotReady or ValueError |
| Controller.Boot | pico-main.py:278-298 | as Restore, after constructing the driver on channel A/128, which a successful boot keeps, so the fresh tare is the mean of the 15 reads after the setter's conversion; with no ready conversion construction raises DeviceIsNotReady and nothing is written; a unit of 0 in the record leaves the constructed unit 1 |
| Controller.WarmBootTakesNoSamples | pico-main.py:282-298 | with both records written by an earlier run and non-zero, boot applies them, consumes only the setter's conversion, writes nothing, and ends with store and driver in agreement |
| Controller.SavedIsPersisted | pico-main.py:232-260 | a store holding the records written from a driver's own calibration loads back exactly that calibration |
| Controller.RestoreWithoutRecords | pico-main.py:282-298 | on a store holding neither record, restoring tares over 15 fresh reads, saves that tare, then writes and applies the default scale record, and no other file changes |
| Controller.FirstBootPersists | pico-main.py:282-298 | on a store holding neither record, boot tares over 15 fresh reads, saves that tare and the default scale record, and ends with store and driver in agreement |
| Controller.ZeroTareIsResampled | pico-main.py:282-284 | a saved tare of 0.0 is falsy: boot resamples the offset and does not save it |
| Controller.ControllerId | pico-main.py:12 | the id ends with the version read from `id_version`, and holds a ";" only when the version does |
| Controller.Report | pico-main.py:321-325 | the report line splits at ";" into the reading and the controller id, and the first field parses back to the reading |
| Controller.Iterate | pico-main.py:304-325 | with nothing received the calibration is unchanged, otherwise it is the dispatcher's; a failed dispatch raises its error; otherwise the line sent is the report of the grams read from the driver the dispatch left, on the conversions it did not consume, and a failed reading raises its error |
| Controller.IdleReport | pico-main.py:321-325 | with nothing received, a pass sends the grams the next three conversions weigh under the current calibration, and the calibration is unchanged |

## Left out

- `src/hazay-ble.py` is not part of this model. It is a separate entry point
  that only configures the BLE module.
- `ble_init`, the AT command constants, UART set-up, `freq()`, the LED and
  every `sleep` are left out. They only drive peripherals and carry no logic
  the driver depends on.
- `_wait` measures wall-clock time. The model replaces the clock with the
  stream: a `Stalled` conversion is a wait that runs out.
- Reading DOUT is reading the next conversion's bits; `is_ready` is
  `Available` on the stream.
- `power_off` and `__repr__` are left out. `power_off` only drives the pin
  and sleeps, and `__repr__` only formats the channel getter's pair as text.
- `print` and the UART write are left out. The loop returns the report line
  instead.
- Received buffers are modelled as text. The UTF-8 decode of a scale
  command, and its failure on invalid bytes, are not modelled.
- Persistence.LoadTare: Python's `float()` accepts exponents, `inf`, `nan`
  and long decimals. The model parses only the text the model's own `str()`
  writes (`n.0` or `num/den`), so a record in another form, including the
  decimal text the firmware writes for a value that is not whole, is
  rejected here but accepted by the firmware.
- Text.ParseInt: underscores between digits and non-ASCII digits and
  whitespace, which Python's `int()` accepts, are not modelled.
- Text.RatText: a value that is not whole prints as `num/den`, not in
  the decimal digits the firmware writes, and such fractions are not
  reduced. The text only has to be read back by the model's own `float()`.
- Text.RatTextRoundTrip: the exact round trip holds for the model's text
  format only. In the firmware, saving and reloading a value that is not
  whole is approximate: MicroPython's `str()` of a float keeps only about
  7 significant digits on single-precision builds such as the RP2040 port,
  and large values print in exponent form.
- Fractions.Quotient: float rounding is not modelled. Averages, scales and
  quotients are exact, so the gram reading is the truncation of the exact
  weight rather than of its nearest float.
- Calibration.GetReadingInGrams: the contract is stated in two parts rather
  than as one closed formula. The units are the exact (mean − offset) /
  scale, and the grams are `Grams` of those units. Each part is proved
  separately.
- Controller.Iterate: the loop runs forever; the model is one pass of it,
  with the received buffer (if any) as a parameter.

=== FILE: bits.dfy ===
/** The 24-bit serial frame of the HX711: the driver's MSB-first shift
    register and the two's-complement reading of the shifted-in pattern. */
module Bits {

  const DATA_BITS: nat := 24
  /** Largest positive conversion result, 0x7FFFFF. */
  const MAX_VALUE: nat := 0x7F_FFFF
  /** The sign bit, 1 << (DATA_BITS - 1); also the magnitude of the most negative result. */
  const MIN_VALUE: nat := 0x80_0000
  /** Number of distinct frames, 1 << DATA_BITS. */
  const FRAME_SPAN: nat := 0x100_0000

  function Pow2(n: nat): (r: nat)
    ensures r >= 1
  {
    if n == 0 then 1 else 2 * Pow2(n - 1)
  }

  lemma FrameConstants()
    ensures Pow2(DATA_BITS) == FRAME_SPAN
    ensures Pow2(DATA_BITS - 1) == MIN_VALUE
    ensures MAX_VALUE == MIN_VALUE - 1
  {
    assert Pow2(1) == 2;
    assert Pow2(2) == 4;
    assert Pow2(3) == 8;
    assert Pow2(4) == 16;
    assert Pow2(5) == 32;
    assert Pow2(6) == 64;
    assert Pow2(7) == 128;
    assert Pow2(8) == 256;
    assert Pow2(9) == 512;
    assert Pow2(10) == 1024;
    assert Pow2(11) == 2048;
    assert Pow2(12) == 4096;
    assert Pow2(13) == 8192;
    assert Pow2(14) == 16384;
    assert Pow2(15) == 32768;
    assert Pow2(16) == 65536;
    assert Pow2(17) == 131072;
    assert Pow2(18) == 262144;
    assert Pow2(19) == 524288;
    assert Pow2(20) == 1048576;
    assert Pow2(21) == 2097152;
    assert Pow2(22) == 4194304;
    assert Pow2(23) == 8388608;
    assert Pow2(24) == 16777216;
  }

  function Bit(b: bool): nat
  {
    if b then 1 else 0
  }

  /** The value of a bit string sent most significant bit first:
      the sum of bits[i] * 2^(|bits| - 1 - i). */
  function Weight(bits: seq<bool>): nat
  {
    if |bits| == 0 then 0 else Bit(bits[0]) * Pow2(|bits| - 1) + Weight(bits[1..])
  }

  /** The driver's read loop: for every sample in order, `acc = acc << 1 | bit`.
      Shifting left leaves the low bit clear, so `| bit` adds the bit. */
  function ShiftIn(acc: nat, bits: seq<bool>): nat
    decreases |bits|
  {
    if |bits| == 0 then acc else ShiftIn(2 * acc + Bit(bits[0]), bits[1..])
  }

  /** Shifting a frame into an accumulator scales the accumulator by 2^|bits|
      and adds the frame's MSB-first value. */
  lemma {:induction false} ShiftInIsWeight(acc: nat, bits: seq<bool>)
    ensures ShiftIn(acc, bits) == acc * Pow2(|bits|) + Weight(bits)
    decreases |bits|
  {
    if |bits| > 0 {
      var p := Pow2(|bits| - 1);
      var b := Bit(bits[0]);
      ShiftInIsWeight(2 * acc + b, bits[1..]);
      assert Pow2(|bits|) == 2 * p;
      assert Weight(bits) == b * p + Weight(bits[1..]);
      ShiftStep(acc, b, p);
    }
  }

  /** One shift step: (2a + b) * p == a * 2p + b * p. */
  lemma ShiftStep(a: nat, b: nat, p: nat)
    ensures (2 * a + b) * p == a * (2 * p) + b * p
  {
  }

  /** n samples never make a value of n + 1 bits. */
  lemma {:induction false} WeightBound(bits: seq<bool>)
    ensures Weight(bits) < Pow2(|bits|)
    decreases |bits|
  {
    if |bits| > 0 {
      WeightBound(bits[1..]);
    }
  }

  /** The bits a converter drives onto the data line for the pattern v,
      most significant first: the inverse of Weight. */
  function BitsOf(v: nat, n: nat): (bits: seq<bool>)
    ensures |bits| == n
  {
    if n == 0 then [] else [(v / Pow2(n - 1)) % 2 == 1] + BitsOf(v % Pow2(n - 1), n - 1)
  }

  lemma {:induction false} WeightOfBitsOf(v: nat, n: nat)
    requires v < Pow2(n)
    ensures Weight(BitsOf(v, n)) == v
    decreases n
  {
    if n > 0 {
      var p := Pow2(n - 1);
      var lo := v % p;
      var top := (v / p) % 2 == 1;
      HighBit(v, p);
      WeightOfBitsOf(lo, n - 1);
      var bits := BitsOf(v, n);
      assert bits == [top] + BitsOf(lo, n - 1);
      assert bits[1..] == BitsOf(lo, n - 1);
      assert Weight(bits) == Bit(top) * p + lo;
    }
  }

  /** A value below 2p is its top bit times p plus its remainder. */
  lemma HighBit(v: nat, p: nat)
    requires 0 < p && v < 2 * p
    ensures v == Bit((v / p) % 2 == 1) * p + v % p
  {
    if v < p {
      assert v / p == 0;
    } else {
      assert v / p == 1 by {
        assert (v - p) / p == 0;
      }
    }
  }

  /** `value & (1 << k)` is non-zero. */
  predicate BitSet(v: nat, k: nat)
    decreases k
  {
    if k == 0 then v % 2 == 1 else BitSet(v / 2, k - 1)
  }

  /** Below 2^(k+1), bit k is set exactly from 2^k upwards. */
  lemma {:induction false} TopBitSet(v: nat, k: nat)
    requires v < Pow2(k + 1)
    ensures BitSet(v, k) <==> v >= Pow2(k)
    decreases k
  {
    if k > 0 {
      TopBitSet(v / 2, k - 1);
    }
  }

  /** `value & (1 << (DATA_BITS - 1))` is non-zero. */
  predicate SignBitSet(v: nat)
  {
    BitSet(v, DATA_BITS - 1)
  }

  /** For a 24-bit pattern the sign bit is set exactly from MIN_VALUE upwards. */
  lemma SignBitOfPattern(v: nat)
    ensures v < FRAME_SPAN ==> (SignBitSet(v) <==> v >= MIN_VALUE)
  {
    if v < FRAME_SPAN {
      FrameConstants();
      TopBitSet(v, DATA_BITS - 1);
    }
  }

  /** The driver's two's-complement conversion of a shifted-in pattern. */
  function FromTwosComplement(v: nat): (r: int)
    ensures v < FRAME_SPAN ==> -(MIN_VALUE as int) <= r <= MAX_VALUE
    ensures v < FRAME_SPAN ==> (r < 0 <==> v >= MIN_VALUE)
    ensures v < FRAME_SPAN ==> r == v || r == v - FRAME_SPAN
  {
    SignBitOfPattern(v);
    if SignBitSet(v) then v - FRAME_SPAN else v
  }

  /** The conversion keeps the pattern's residue modulo 2^24. */
  lemma FromTwosComplementCongruent(v: nat)
    ensures FromTwosComplement(v) % FRAME_SPAN == v % FRAME_SPAN
  {
    SignBitOfPattern(v);
    if SignBitSet(v) {
      assert FromTwosComplement(v) == v - FRAME_SPAN;
    }
  }

  /** How the converter lays a signed result out as a 24-bit pattern. */
  function ToTwosComplement(x: int): (v: nat)
    ensures v < FRAME_SPAN
    ensures -(MIN_VALUE as int) <= x < 0 ==> v == x + FRAME_SPAN
    ensures 0 <= x <= MAX_VALUE ==> v == x
  {
    x % FRAME_SPAN
  }

  /** Decoding then re-encoding gives back every 24-bit pattern. */
  lemma PatternRoundTrip(v: nat)
    requires v < FRAME_SPAN
    ensures ToTwosComplement(FromTwosComplement(v)) == v
  {
    FromTwosComplementCongruent(v);
  }

  /** Encoding then decoding gives back every representable result. */
  lemma ValueRoundTrip(x: int)
    requires -(MIN_VALUE as int) <= x <= MAX_VALUE
    ensures FromTwosComplement(ToTwosComplement(x)) == x
  {
  }
}

=== FILE: calibration.dfy ===
/** The calibration engine of the HX711 object: averaged sampling, tare,
    scale, and the conversion of raw counts into grams. */
module Calibration {
  import opened Outcomes
  import opened Bits
  import opened Fractions
  import opened Hx711

  /** Outcome of a sampling operation that leaves the driver as it is. */
  datatype Sampled<T> = Sampled(out: Result<T>, rest: Stream)

  /** Outcome of a calibration operation: result, driver afterwards, and the
      conversions not yet consumed. */
  datatype Step<T> = Step(out: Result<T>, drv: Driver, rest: Stream)

  /** The next n waits all see a ready conversion. */
  predicate AllReady(src: Stream, n: nat)
  {
    n <= |src| && forall i :: 0 <= i < n ==> src[i].Ready?
  }

  /** The sum of the signed values a run of conversions carries. */
  function SumCodes(cs: seq<Conversion>): int
  {
    if |cs| == 0 then 0 else Code(cs[0]) + SumCodes(cs[1..])
  }

  /** The mean of the signed values of the next n conversions. */
  function MeanOf(src: Stream, n: nat): real
    requires 0 < n <= |src|
  {
    SumCodes(src[..n]) as real / n as real
  }

  /** Python's truthiness of an optional float argument: None and zero
      are false. */
  predicate Truthy(x: Option<Rat>)
    ensures Truthy(x) <==> x != None && Value(x.value) != 0.0
  {
    x.Some? && !IsZero(x.value)
  }

  /** Python's truthiness of an optional int argument: None and zero are
      false. */
  predicate TruthyInt(x: Option<int>)
  {
    x.Some? && x.value != 0
  }

  lemma {:induction false} SumCodesBound(cs: seq<Conversion>)
    requires forall i :: 0 <= i < |cs| ==> cs[i].Ready?
    ensures -(MIN_VALUE as int) * |cs| <= SumCodes(cs) <= MAX_VALUE * |cs|
    decreases |cs|
  {
    if |cs| > 0 {
      SumCodesBound(cs[1..]);
      FrameConstants();
      WeightBound(cs[0].frame);
      ShiftInIsWeight(0, cs[0].frame);
    }
  }

  lemma AllReadyTail(src: Stream, times: nat)
    requires times > 0 && |src| > 0
    ensures AllReady(src, times) <==> src[0].Ready? && AllReady(src[1..], times - 1)
    ensures times <= |src| ==> SumCodes(src[..times]) == Code(src[0]) + SumCodes(src[1..][..times - 1])
  {
    if times <= |src| {
      assert src[..times][1..] == src[1..][..times - 1];
    }
    if src[0].Ready? && AllReady(src[1..], times - 1) {
      forall i | 0 <= i < times
        ensures src[i].Ready?
      {
        if i > 0 {
          assert src[1..][i - 1] == src[i];
        }
      }
    }
  }

  /** The loop of `read_average`: add up `times` successive reads. */
  function SumReads(ch: Gain, src: Stream, times: nat): (r: Sampled<int>)
    ensures AllReady(src, times) ==> r.out == Ok(SumCodes(src[..times])) && r.rest == src[times..]
    ensures !AllReady(src, times) ==> r.out == Err(DeviceIsNotReady)
    decreases times
  {
    if times == 0 then
      assert src[..0] == [];
      Sampled(Ok(0), src)
    else if !Available(src) then
      assert |src| == 0 || !src[0].Ready?;
      Sampled(Err(DeviceIsNotReady), Advance(src))
    else
      var first := Read(ch, src, false);
      var more := SumReads(ch, src[1..], times - 1);
      AllReadyTail(src, times);
      if more.out.Err? then more
      else
        TailOfTail(src, times);
        Sampled(Ok(first.out.value + more.out.value), more.rest)
  }

  lemma TailOfTail(src: Stream, times: nat)
    requires 0 < times <= |src|
    ensures src[1..][times - 1..] == src[times..]
  {
  }

  lemma MeanBound(sum: int, n: nat)
    requires n > 0
    requires -(MIN_VALUE as int) * n <= sum <= MAX_VALUE * n
    ensures -(MIN_VALUE as real) <= sum as real / n as real <= MAX_VALUE as real
  {
    var nr := n as real;
    assert (-(MIN_VALUE as int) * n) as real == -(MIN_VALUE as real) * nr;
    assert (MAX_VALUE * n) as real == (MAX_VALUE as real) * nr;
  }

  /** An average of conversions lies in the 24-bit signed range. */
  lemma MeanInRange(src: Stream, n: nat)
    requires n > 0 && AllReady(src, n)
    ensures -(MIN_VALUE as real) <= MeanOf(src, n) <= MAX_VALUE as real
  {
    var cs := src[..n];
    assert forall i :: 0 <= i < |cs| ==> cs[i].Ready?;
    SumCodesBound(cs);
    MeanBound(SumCodes(cs), n);
  }

  /** `read_average(times)`: the mean of `times` reads. A count of zero divides
      by zero after reading nothing; a negative count reads nothing and
      yields zero. */
  function ReadAverage(ch: Gain, src: Stream, times: int): (r: Sampled<Rat>)
    ensures times > 0 && AllReady(src, times) ==>
      r.out.Ok? && Value(r.out.value) == MeanOf(src, times) && r.rest == src[times..]
    ensures times > 0 && AllReady(src, times) ==>
      -(MIN_VALUE as real) <= Value(r.out.value) <= MAX_VALUE as real
    ensures times > 0 && !AllReady(src, times) ==> r.out == Err(DeviceIsNotReady)
    ensures times == 0 ==> r.out == Err(ZeroDivision) && r.rest == src
    ensures times < 0 ==> r.out.Ok? && Value(r.out.value) == 0.0 && r.rest == src
  {
    if times == 0 then Sampled(Err(ZeroDivision), src)
    else if times < 0 then Sampled(Ok(Quotient(0, times)), src)
    else
      var s := SumReads(ch, src, times);
      match s.out
      case Err(e) => Sampled(Err(e), s.rest)
      case Ok(sum) =>
        MeanInRange(src, times);
        Sampled(Ok(Quotient(sum, times)), s.rest)
  }

  /** `tare(times, known_tare)`: a truthy known tare is applied as it is;
      otherwise, zero included, the offset becomes the mean of `times` reads.
      Returns the applied offset. */
  function Tare(d: Driver, src: Stream, times: int, known: Option<Rat>): (r: Step<Rat>)
    ensures Truthy(known) ==> r.out == Ok(known.value) && r.rest == src
    ensures !Truthy(known) && times > 0 && AllReady(src, times) ==>
      r.out.Ok? && Value(r.out.value) == MeanOf(src, times) && r.rest == src[times..]
    ensures !Truthy(known) && times > 0 && !AllReady(src, times) ==> r.out == Err(DeviceIsNotReady)
    ensures !Truthy(known) && times == 0 ==> r.out == Err(ZeroDivision)
    ensures r.out.Ok? ==> r.drv == d.(offset := r.out.value)
    ensures r.out.Err? ==> r.drv == d
  {
    if Truthy(known) then Step(Ok(known.value), d.(offset := known.value), src)
    else
      var avg := ReadAverage(d.channel, src, times);
      match avg.out
      case Err(e) => Step(Err(e), d, avg.rest)
      case Ok(offset) => Step(Ok(offset), d.(offset := offset), avg.rest)
  }

  /** `scale(times, known_scale, known_unit)`: a truthy known scale is applied
      as it is; otherwise the scale becomes the mean of `times` reads less the
      offset. The unit changes only for a truthy known unit. Returns the scale
      and the known unit as passed, not the stored one. */
  function Scale(d: Driver, src: Stream, times: int, knownScale: Option<Rat>, knownUnit: Option<int>)
    : (r: Step<(Rat, Option<int>)>)
    ensures Truthy(knownScale) ==> r.out.Ok? && r.out.value.0 == knownScale.value && r.rest == src
    ensures !Truthy(knownScale) && times > 0 && AllReady(src, times) ==>
      r.out.Ok? && Value(r.out.value.0) == MeanOf(src, times) - Value(d.offset) && r.rest == src[times..]
    ensures !Truthy(knownScale) && times > 0 && !AllReady(src, times) ==> r.out == Err(DeviceIsNotReady)
    ensures !Truthy(knownScale) && times == 0 ==> r.out == Err(ZeroDivision)
    ensures r.out.Ok? ==> r.out.value.1 == knownUnit
    ensures r.out.Ok? ==>
      r.drv == d.(scale := r.out.value.0, unit := if TruthyInt(knownUnit) then knownUnit.value else d.unit)
    ensures r.out.Err? ==> r.drv == d
  {
    var sampled :=
      if !Truthy(knownScale) then
        var avg := ReadAverage(d.channel, src, times);
        match avg.out
        case Err(e) => Sampled(Err(e), avg.rest)
        case Ok(mean) => Sampled(Ok(Minus(mean, d.offset)), avg.rest)
      else Sampled(Ok(knownScale.value), src);
    match sampled.out
    case Err(e) => Step(Err(e), d, sampled.rest)
    case Ok(scale) =>
      var withScale := d.(scale := scale);
      var drv := if TruthyInt(knownUnit) then withScale.(unit := knownUnit.value) else withScale;
      Step(Ok((scale, knownUnit)), drv, sampled.rest)
  }

  /** The count read_average uses when called without an argument. */
  const DEFAULT_TIMES: nat := 3

  /** `get_value()`: the mean of three reads less the offset. */
  function GetValue(d: Driver, src: Stream): (r: Sampled<Rat>)
    ensures AllReady(src, DEFAULT_TIMES) ==>
      r.out.Ok? && Value(r.out.value) == MeanOf(src, DEFAULT_TIMES) - Value(d.offset)
      && r.rest == src[DEFAULT_TIMES..]
    ensures !AllReady(src, DEFAULT_TIMES) ==> r.out == Err(DeviceIsNotReady)
  {
    var avg := ReadAverage(d.channel, src, DEFAULT_TIMES);
    match avg.out
    case Err(e) => Sampled(Err(e), avg.rest)
    case Ok(mean) => Sampled(Ok(Minus(mean, d.offset)), avg.rest)
  }

  /** The weight in calibration units the next three conversions stand for. */
  function ExpectedUnits(d: Driver, src: Stream): real
    requires AllReady(src, DEFAULT_TIMES) && !IsZero(d.scale)
  {
    (MeanOf(src, DEFAULT_TIMES) - Value(d.offset)) / Value(d.scale)
  }

  /** `get_units()`: the value divided by the scale; a zero scale raises
      ZeroDivisionError after the reads have been taken. */
  function GetUnits(d: Driver, src: Stream): (r: Sampled<Rat>)
    ensures AllReady(src, DEFAULT_TIMES) && !IsZero(d.scale) ==>
      r.out.Ok? && Value(r.out.value) == ExpectedUnits(d, src) && r.rest == src[DEFAULT_TIMES..]
    ensures AllReady(src, DEFAULT_TIMES) && IsZero(d.scale) ==>
      r.out == Err(ZeroDivision) && r.rest == src[DEFAULT_TIMES..]
    ensures !AllReady(src, DEFAULT_TIMES) ==> r.out == Err(DeviceIsNotReady)
  {
    var v := GetValue(d, src);
    match v.out
    case Err(e) => Sampled(Err(e), v.rest)
    case Ok(value) =>
      if IsZero(d.scale) then Sampled(Err(ZeroDivision), v.rest)
      else
        UnitsOfValue(d, src, value);
        Sampled(Ok(Over(value, d.scale)), v.rest)
  }

  lemma UnitsOfValue(d: Driver, src: Stream, value: Rat)
    requires AllReady(src, DEFAULT_TIMES) && !IsZero(d.scale)
    requires Value(value) == MeanOf(src, DEFAULT_TIMES) - Value(d.offset)
    ensures Value(Over(value, d.scale)) == ExpectedUnits(d, src)
  {
    var m := MeanOf(src, DEFAULT_TIMES) - Value(d.offset);
    assert Value(Over(value, d.scale)) == m / Value(d.scale);
  }

  /** `get_reading_in_unit_grams()`: `int(abs(max(units * UNIT, 0)))`, a
      whole number of grams, never negative, rounded toward zero. */
  function GetReadingInGrams(d: Driver, src: Stream): (r: Sampled<int>)
    ensures r.out.Ok? ==> r.out.value >= 0
    ensures AllReady(src, DEFAULT_TIMES) && !IsZero(d.scale) ==>
      r.out.Ok? && r.rest == src[DEFAULT_TIMES..] && r.out.value == Grams(GetUnits(d, src).out.value, d.unit)
      && Value(GetUnits(d, src).out.value) == ExpectedUnits(d, src)
    ensures r.out.Err? <==> !AllReady(src, DEFAULT_TIMES) || IsZero(d.scale)
    ensures AllReady(src, DEFAULT_TIMES) && IsZero(d.scale) ==> r.out == Err(ZeroDivision)
    ensures !AllReady(src, DEFAULT_TIMES) ==> r.out == Err(DeviceIsNotReady)
  {
    var u := GetUnits(d, src);
    match u.out
    case Err(e) => Sampled(Err(e), u.rest)
    case Ok(units) =>
      Sampled(Ok(Grams(units, d.unit)), u.rest)
  }

  /** `int(abs(max(units * UNIT, 0)))`: the largest whole number of grams not
      above the weight, or zero for a weight below zero. */
  function Grams(units: Rat, unit: int): (g: int)
    ensures g >= 0
    ensures g as real <= Clamp(Value(units) * unit as real) < g as real + 1.0
  {
    var weight := Times(units, unit);
    var clamped := AtLeastZero(weight);
    assert Value(clamped) == Clamp(Value(units) * unit as real);
    Truncate(Magnitude(clamped))
  }

  /** A weight below one gram, negative weights included, reads as zero. */
  lemma GramsClampAtZero(units: Rat, unit: int)
    requires Value(units) * unit as real < 1.0
    ensures Grams(units, unit) == 0
  {
    var g := Grams(units, unit);
    assert Clamp(Value(units) * unit as real) < 1.0;
    assert g as real < 1.0;
  }

  /** The sum of the first three conversions of a stream. */
  lemma SumOfFirstThree(src: Stream)
    requires |src| >= 3
    ensures SumCodes(src[..3]) == Code(src[0]) + Code(src[1]) + Code(src[2])
  {
    var cs := src[..3];
    assert cs[1..][1..][1..] == [];
    assert SumCodes(cs[1..][1..]) == Code(src[2]);
    assert SumCodes(cs[1..]) == Code(src[1]) + Code(src[2]);
  }

  /** Taring over three ready conversions sets the offset to their mean. */
  lemma TareOverThree(d: Driver, src: Stream)
    requires AllReady(src, 3)
    ensures var t := Tare(d, src, 3, None);
      && t.out.Ok?
      && t.drv.offset == t.out.value
      && Value(t.out.value) == (Code(src[0]) + Code(src[1]) + Code(src[2])) as real / 3.0
  {
    SumOfFirstThree(src);
  }

  /** Taring over conversions carrying 100, 200 and 300 sets the offset to 200. */
  lemma TareExample(d: Driver, src: Stream)
    requires AllReady(src, 3)
    requires Code(src[0]) == 100 && Code(src[1]) == 200 && Code(src[2]) == 300
    ensures Value(Tare(d, src, 3, None).drv.offset) == 200.0
  {
    TareOverThree(d, src);
  }

  /** A weight of a whole number of grams reads as exactly that number. */
  lemma GramsOfWhole(units: Rat, unit: int, n: nat)
    requires Value(units) * unit as real == n as real
    ensures Grams(units, unit) == n
  {
    var g := Grams(units, unit);
    assert g as real <= n as real < g as real + 1.0;
  }

  /** The reading over three ready conversions, in calibration units. */
  lemma UnitsOverThree(d: Driver, src: Stream)
    requires AllReady(src, 3) && !IsZero(d.scale)
    ensures var u := GetUnits(d, src);
      && u.out.Ok?
      && Value(u.out.value) ==
         ((Code(src[0]) + Code(src[1]) + Code(src[2])) as real / 3.0 - Value(d.offset)) / Value(d.scale)
      && GetReadingInGrams(d, src).out == Ok(Grams(u.out.value, d.unit))
  {
    SumOfFirstThree(src);
  }

  /** Offset 200, three reads of 250, scale 25 and unit 10 give 20 grams. */
  lemma ReadingExample(ch: Gain, src: Stream)
    requires AllReady(src, 3)
    requires Code(src[0]) == 250 && Code(src[1]) == 250 && Code(src[2]) == 250
    ensures GetReadingInGrams(Driver(ch, Of(200), Of(25), 10), src).out == Ok(20)
  {
    var d := Driver(ch, Of(200), Of(25), 10);
    SumOfFirstThree(src);
    assert MeanOf(src, DEFAULT_TIMES) == 250.0;
    assert ExpectedUnits(d, src) == 2.0;
    var units := GetUnits(d, src).out.value;
    assert Value(units) == 2.0;
    GramsOfWhole(units, 10, 20);
  }
}

=== FILE: controller.dfy ===
/** The firmware's top level: the boot sequence that restores or creates the
    calibration records, the serial command dispatcher, and one pass of the
    reporting loop. */
module Controller {
  import opened Outcomes
  import opened Bits
  import opened Fractions
  import opened Text
  import opened Hx711
  import opened Calibration
  import opened Persistence

  const CMND_TARE: string := "HazayCargo-Cmnd: Tare"
  const CMND_SCALE: string := "HazayCargo-Cmnd: Scale"

  /** The default `times` of tare() and scale(). */
  const CALIBRATION_TIMES: nat := 15

  /** Calibration written at first boot, to be replaced by the user: 33150.00 and 1556. */
  const DEFAULT_SCALE: Rat := Fraction(33150, 1)
  const DEFAULT_UNIT: int := 1556

  /** The driver together with the store it persists its calibration to. */
  datatype Controller = Controller(drv: Driver, store: Store)

  datatype Command = TareCommand | ScaleCommand(massGrams: int) | NoCommand

  /** `int(text.split(";")[1].split(":")[1])`: the reference mass of a
      scale command, the second ":"-field of its second ";"-field. */
  function ScaleMass(buf: string): (r: Result<int>)
    ensures |Split(buf, ';')| < 2 ==> r == Err(IndexError)
    ensures |Split(buf, ';')| >= 2 && |Split(Split(buf, ';')[1], ':')| < 2 ==> r == Err(IndexError)
    ensures |Split(buf, ';')| >= 2 && |Split(Split(buf, ';')[1], ':')| >= 2 ==>
      var mass := ParseInt(Split(Split(buf, ';')[1], ':')[1]);
      && (mass.Some? ==> r == Ok(mass.value))
      && (mass.None? ==> r == Err(ValueError))
  {
    var fields := Split(buf, ';');
    if |fields| < 2 then Err(IndexError)
    else
      var pair := Split(fields[1], ':');
      if |pair| < 2 then Err(IndexError)
      else
        match ParseInt(pair[1])
        case Some(mass) => Ok(mass)
        case None => Err(ValueError)
  }

  /** How the main loop reads a received buffer: exactly the tare command,
      or any buffer holding the scale token, whose mass is then extracted. */
  function ParseCommand(buf: string): (r: Result<Command>)
    ensures buf == CMND_TARE ==> r == Ok(TareCommand)
    ensures buf != CMND_TARE && !Contains(buf, CMND_SCALE) ==> r == Ok(NoCommand)
    ensures buf != CMND_TARE && Contains(buf, CMND_SCALE) ==>
      (r.Ok? <==> ScaleMass(buf).Ok?) && (r.Ok? ==> r.value == ScaleCommand(ScaleMass(buf).value))
    ensures r.Err? ==> Contains(buf, CMND_SCALE)
    ensures r.Err? ==> ScaleMass(buf).Err? && r.error == ScaleMass(buf).error
    ensures r.Err? ==> r.error == IndexError || r.error == ValueError
  {
    if buf == CMND_TARE then Ok(TareCommand)
    else if Contains(buf, CMND_SCALE) then
      match ScaleMass(buf)
      case Ok(mass) => Ok(ScaleCommand(mass))
      case Err(e) => Err(e)
    else Ok(NoCommand)
  }

  /** A scale command as a sender writes it: any text without ";" around the
      command token, then ";key:mass", perhaps followed by a line end. */
  function ScaleCommandText(before: string, after: string, key: string, mass: int, pad: string): string
  {
    (before + CMND_SCALE + after) + [';'] + (key + [':'] + (IntText(mass) + pad))
  }

  lemma NoSpaceIsNotSeparator(pad: string)
    requires forall k :: 0 <= k < |pad| ==> IsSpace(pad[k])
    ensures ';' !in pad && ':' !in pad
  {
  }

  /** A buffer holding the scale token is not the tare command and is
      recognised as holding it. */
  lemma ScaleTokenFound(before: string, after: string, sep: char, rest: string)
    ensures Contains((before + CMND_SCALE + after) + [sep] + rest, CMND_SCALE)
    ensures (before + CMND_SCALE + after) + [sep] + rest != CMND_TARE
  {
    var buf := (before + CMND_SCALE + after) + [sep] + rest;
    assert buf[|before|..|before| + |CMND_SCALE|] == CMND_SCALE;
    assert OccursAt(buf, CMND_SCALE, |before|);
    assert |buf| > |CMND_TARE|;
  }

  /** The mass of `head;key:<mass><line end>` is read back exactly. */
  lemma ScaleMassRoundTrip(head: string, key: string, mass: int, pad: string)
    requires ';' !in head && ';' !in key && ':' !in key
    requires forall k :: 0 <= k < |pad| ==> IsSpace(pad[k])
    ensures ScaleMass(head + [';'] + (key + [':'] + (IntText(mass) + pad))) == Ok(mass)
  {
    var num := IntText(mass) + pad;
    var field := key + [':'] + num;
    NoSpaceIsNotSeparator(pad);
    assert ';' !in IntText(mass) && ':' !in IntText(mass);
    assert ';' !in field;
    SplitAtFirst(head, ';', field);
    SplitWithout(field, ';');
    assert Split(head + [';'] + field, ';') == [head, field];
    SplitAtFirst(key, ':', num);
    SplitWithout(num, ':');
    assert Split(field, ':') == [key, num];
    ParseIntText(mass, pad);
  }

  /** Every well-formed scale command is read back as its reference mass. */
  lemma ScaleCommandRoundTrip(before: string, after: string, key: string, mass: int, pad: string)
    requires ';' !in before && ';' !in after
    requires ';' !in key && ':' !in key
    requires forall k :: 0 <= k < |pad| ==> IsSpace(pad[k])
    ensures ParseCommand(ScaleCommandText(before, after, key, mass, pad)) == Ok(ScaleCommand(mass))
  {
    var head := before + CMND_SCALE + after;
    var field := key + [':'] + (IntText(mass) + pad);
    var buf := ScaleCommandText(before, after, key, mass, pad);
    assert buf == head + [';'] + field;
    ScaleTokenFound(before, after, ';', field);
    HeadWithoutSeparator(before, after);
    ScaleMassRoundTrip(head, key, mass, pad);
    assert ScaleMass(buf) == Ok(mass);
  }

  lemma HeadWithoutSeparator(before: string, after: string)
    requires ';' !in before && ';' !in after
    ensures ';' !in before + CMND_SCALE + after
  {
    assert ';' !in CMND_SCALE;
  }

  /** The tare command must match the whole buffer: with a line end after it
      the buffer is ignored. */
  lemma TareCommandNeedsExactBuffer()
    ensures ParseCommand(CMND_TARE + "\n") == Ok(NoCommand)
  {
    var buf := CMND_TARE + "\n";
    assert buf[17] != CMND_SCALE[17];
    assert !OccursAt(buf, CMND_SCALE, 0);
    forall i | 0 < i
      ensures !OccursAt(buf, CMND_SCALE, i)
    {
    }
  }

  /** Result of handling one received buffer. */
  datatype Handled = Handled(out: Result<()>, ctl: Controller, rest: Stream)

  /** The tare command: tare over 15 fresh reads, then save the offset. */
  function TareAndSave(c: Controller, src: Stream): (r: Handled)
    ensures r.out.Err? ==> r.out == Err(DeviceIsNotReady) && r.ctl == c
    ensures r.out.Ok? <==> AllReady(src, CALIBRATION_TIMES)
    ensures r.out.Ok? ==>
      && Value(r.ctl.drv.offset) == MeanOf(src, CALIBRATION_TIMES)
      && r.ctl.drv == c.drv.(offset := r.ctl.drv.offset)
      && LoadTare(r.ctl.store) == Ok(r.ctl.drv.offset)
      && LoadScaleUnit(r.ctl.store) == LoadScaleUnit(c.store)
      && r.rest == src[CALIBRATION_TIMES..]
    ensures r.out.Ok? ==> r.ctl.store == SaveTare(c.store, r.ctl.drv.offset)
  {
    var t := Tare(c.drv, src, CALIBRATION_TIMES, None);
    if t.out.Err? then Handled(Err(t.out.error), c, t.rest)
    else
      var offset := t.out.value;
      TareRoundTrip(c.store, offset);
      RecordsIndependent(c.store, offset, c.drv.scale, c.drv.unit);
      Handled(Ok(()), Controller(t.drv, SaveTare(c.store, offset)), t.rest)
  }

  /** The scale command: rescale over 15 fresh reads against the reference
      mass, then save the scale with the mass as unit. */
  function ScaleAndSave(c: Controller, src: Stream, mass: int): (r: Handled)
    ensures r.out.Err? ==> r.out == Err(DeviceIsNotReady) && r.ctl == c
    ensures r.out.Ok? <==> AllReady(src, CALIBRATION_TIMES)
    ensures r.out.Ok? ==>
      && Value(r.ctl.drv.scale) == MeanOf(src, CALIBRATION_TIMES) - Value(c.drv.offset)
      && r.ctl.drv.offset == c.drv.offset
      && r.ctl.drv.channel == c.drv.channel
      && r.ctl.drv.unit == (if mass != 0 then mass else c.drv.unit)
      && LoadScaleUnit(r.ctl.store) == Ok((r.ctl.drv.scale, mass))
      && LoadTare(r.ctl.store) == LoadTare(c.store)
      && r.rest == src[CALIBRATION_TIMES..]
    ensures r.out.Ok? ==> r.ctl.store == SaveScaleUnit(c.store, r.ctl.drv.scale, mass)
  {
    var s := Scale(c.drv, src, CALIBRATION_TIMES, None, Some(mass));
    if s.out.Err? then Handled(Err(s.out.error), c, s.rest)
    else
      var scale := s.out.value.0;
      ScaleUnitRoundTrip(c.store, scale, mass);
      RecordsIndependent(c.store, c.drv.offset, scale, mass);
      Handled(Ok(()), Controller(s.drv, SaveScaleUnit(c.store, scale, s.out.value.1.value)), s.rest)
  }

  /** The command branch of the main loop: run a recognised command; any
      other buffer is ignored. */
  function Dispatch(c: Controller, src: Stream, buf: string): (r: Handled)
    ensures ParseCommand(buf) == Ok(NoCommand) ==> r.out.Ok? && r.ctl == c && r.rest == src
    ensures ParseCommand(buf).Err? ==> r.out == Err(ParseCommand(buf).error) && r.ctl == c && r.rest == src
    ensures r.out.Err? ==> r.ctl == c
    ensures ParseCommand(buf) == Ok(TareCommand) ==> r == TareAndSave(c, src)
    ensures ParseCommand(buf).Ok? && ParseCommand(buf).value.ScaleCommand? ==>
      r == ScaleAndSave(c, src, ParseCommand(buf).value.massGrams)
    ensures buf == CMND_TARE ==> r == TareAndSave(c, src)
  {
    match ParseCommand(buf)
    case Err(e) => Handled(Err(e), c, src)
    case Ok(NoCommand) => Handled(Ok(()), c, src)
    case Ok(TareCommand) => TareAndSave(c, src)
    case Ok(ScaleCommand(mass)) => ScaleAndSave(c, src, mass)
  }

  /** The store holds exactly the calibration the driver uses. */
  predicate Persisted(c: Controller)
  {
    LoadTare(c.store) == Ok(c.drv.offset) && LoadScaleUnit(c.store) == Ok((c.drv.scale, c.drv.unit))
  }

  /** Handling a buffer keeps store and driver in agreement, except for a
      scale command with mass 0. */
  lemma DispatchKeepsPersisted(c: Controller, src: Stream, buf: string)
    requires Persisted(c)
    requires ParseCommand(buf) != Ok(ScaleCommand(0))
    ensures Persisted(Dispatch(c, src, buf).ctl)
  {
  }

  /** A scale command with mass 0 saves unit 0 while the driver keeps its
      unit, so store and driver disagree afterwards. */
  lemma ZeroMassSavesUnusedUnit(c: Controller, src: Stream, before: string, after: string, key: string)
    requires ';' !in before && ';' !in after && ';' !in key && ':' !in key
    requires AllReady(src, CALIBRATION_TIMES) && c.drv.unit != 0
    ensures var r := Dispatch(c, src, ScaleCommandText(before, after, key, 0, ""));
      r.out.Ok? && r.ctl.drv.unit == c.drv.unit && !Persisted(r.ctl)
  {
    ScaleCommandRoundTrip(before, after, key, 0, "");
  }

  /** Result of the boot sequence: the driver if it completed, and the store
      as far as it got. */
  datatype Booted = Booted(out: Result<Driver>, store: Store, rest: Stream)

  /** Boot takes a fresh tare when there is no tare record, and also when
      the record holds zero, since `tare(known_tare=0.0)` resamples. */
  predicate SamplesTare(store: Store)
  {
    !IsTareSaved(store) || (LoadTare(store).Ok? && IsZero(LoadTare(store).value))
  }

  /** Boot, tare part: apply a saved tare, or take and save a fresh one. */
  function BootTare(d: Driver, store: Store, src: Stream): (r: Booted)
    ensures r.out.Ok? ==> IsTareSaved(r.store)
    ensures IsTareSaved(store) ==> r.store == store
    ensures !IsTareSaved(store) && r.out.Ok? ==> r.store == SaveTare(store, r.out.value.offset)
    ensures !IsTareSaved(store) && r.out.Err? ==> r.store == store
    ensures LoadScaleUnit(r.store) == LoadScaleUnit(store)
    ensures IsTareSaved(store) && LoadTare(store).Err? ==> r.out == Err(LoadTare(store).error) && r.rest == src
    ensures LoadTare(store).Ok? && !IsZero(LoadTare(store).value) ==>
      r.out == Ok(d.(offset := LoadTare(store).value)) && r.rest == src
    ensures SamplesTare(store) && AllReady(src, CALIBRATION_TIMES) ==>
      r.out.Ok? && Value(r.out.value.offset) == MeanOf(src, CALIBRATION_TIMES)
      && r.out.value == d.(offset := r.out.value.offset) && r.rest == src[CALIBRATION_TIMES..]
    ensures SamplesTare(store) && !AllReady(src, CALIBRATION_TIMES) ==> r.out == Err(DeviceIsNotReady)
    ensures r.out.Err? ==> r.out.error == DeviceIsNotReady || r.out.error == ValueError
    ensures r.out.Ok? ==> r.out.value == d.(offset := r.out.value.offset) && LoadTare(r.store).Ok?
    ensures r.out.Ok? && !IsZero(LoadTare(r.store).value) ==> r.out.value.offset == LoadTare(r.store).value
    ensures r.out.Ok? && !IsTareSaved(store) ==> LoadTare(r.store) == Ok(r.out.value.offset)
  {
    if IsTareSaved(store) then
      match LoadTare(store)
      case Err(e) => Booted(Err(e), store, src)
      case Ok(offset) =>
        var t := Tare(d, src, CALIBRATION_TIMES, Some(offset));
        Booted(if t.out.Ok? then Ok(t.drv) else Err(t.out.error), store, t.rest)
    else
      var t := Tare(d, src, CALIBRATION_TIMES, None);
      if t.out.Err? then Booted(Err(t.out.error), store, t.rest)
      else
        TareRoundTrip(store, t.out.value);
        RecordsIndependent(store, t.out.value, d.scale, d.unit);
        Booted(Ok(t.drv), SaveTare(store, t.out.value), t.rest)
  }

  lemma DefaultScaleUnitText()
    ensures ScaleUnitText(DEFAULT_SCALE, DEFAULT_UNIT) == "33150.0:1556"
  {
    assert NatText(3) == "3";
    assert NatText(33) == "33";
    assert NatText(331) == "331";
    assert NatText(3315) == "3315";
    assert NatText(33150) == "33150";
    assert RatText(DEFAULT_SCALE) == "33150.0";
    assert NatText(1) == "1";
    assert NatText(15) == "15";
    assert NatText(155) == "155";
    assert NatText(1556) == "1556";
    assert IntText(DEFAULT_UNIT) == "1556";
  }

  /** The store with a scale record, written from the given defaults only
      when there is none. */
  function WithScaleRecord(store: Store, defaultScale: Rat, defaultUnit: int): (r: Store)
    ensures IsScaleUnitSaved(r)
    ensures IsScaleUnitSaved(store) ==> r == store
    ensures !IsScaleUnitSaved(store) ==> LoadScaleUnit(r) == Ok((defaultScale, defaultUnit))
    ensures forall k :: k in store && k != SCALE_UNIT_RECORD ==> k in r && r[k] == store[k]
    ensures r.Keys == store.Keys + {SCALE_UNIT_RECORD}
  {
    if IsScaleUnitSaved(store) then store
    else
      ScaleUnitRoundTrip(store, defaultScale, defaultUnit);
      SaveScaleUnit(store, defaultScale, defaultUnit)
  }

  /** Result of applying a loaded record to the driver. */
  datatype Applied = Applied(out: Result<Driver>, rest: Stream)

  /** `scale(known_scale=scale, known_unit=unit)` on the loaded record; a
      record that failed to load raises before the driver is touched. */
  function ApplyScaleRecord(d: Driver, loaded: Result<(Rat, int)>, src: Stream): (r: Applied)
    ensures loaded.Err? ==> r.out == Err(loaded.error) && r.rest == src
    ensures r.out.Ok? ==> r.out.value.offset == d.offset && r.out.value.channel == d.channel
    ensures loaded.Ok? && !IsZero(loaded.value.0) ==>
      var (scale, unit) := loaded.value;
      r.out == Ok(d.(scale := scale, unit := if unit != 0 then unit else d.unit)) && r.rest == src
    ensures loaded.Ok? && IsZero(loaded.value.0) && AllReady(src, CALIBRATION_TIMES) ==>
      var unit := loaded.value.1;
      && r.out.Ok?
      && Value(r.out.value.scale) == MeanOf(src, CALIBRATION_TIMES) - Value(d.offset)
      && r.out.value == d.(scale := r.out.value.scale, unit := if unit != 0 then unit else d.unit)
      && r.rest == src[CALIBRATION_TIMES..]
    ensures loaded.Ok? && IsZero(loaded.value.0) && !AllReady(src, CALIBRATION_TIMES) ==>
      r.out == Err(DeviceIsNotReady)
    ensures r.out.Ok? ==> loaded.Ok?
    ensures r.out.Ok? && loaded.Ok? ==>
      r.out.value == d.(scale := r.out.value.scale, unit := if loaded.value.1 != 0 then loaded.value.1 else d.unit)
  {
    match loaded
    case Err(e) => Applied(Err(e), src)
    case Ok((scale, unit)) =>
      var s := Scale(d, src, CALIBRATION_TIMES, Some(scale), Some(unit));
      Applied(if s.out.Ok? then Ok(s.drv) else Err(s.out.error), s.rest)
  }

  /** Boot, scale part: write the default record if there is none, then
      apply the saved scale and unit. */
  function BootScale(d: Driver, store: Store, src: Stream, defaultScale: Rat, defaultUnit: int): (r: Booted)
    ensures IsScaleUnitSaved(r.store)
    ensures IsScaleUnitSaved(store) ==> r.store == store
    ensures !IsScaleUnitSaved(store) ==> r.store == SaveScaleUnit(store, defaultScale, defaultUnit)
    ensures !IsScaleUnitSaved(store) ==> LoadScaleUnit(r.store) == Ok((defaultScale, defaultUnit))
    ensures r.out.Ok? ==> r.out.value.offset == d.offset && r.out.value.channel == d.channel
    ensures !IsScaleUnitSaved(store) && !IsZero(defaultScale) ==>
      r.out == Ok(d.(scale := defaultScale, unit := if defaultUnit != 0 then defaultUnit else d.unit)) && r.rest == src
    ensures LoadScaleUnit(store).Ok? && !IsZero(LoadScaleUnit(store).value.0) ==>
      var (scale, unit) := LoadScaleUnit(store).value;
      r.out == Ok(d.(scale := scale, unit := if unit != 0 then unit else d.unit)) && r.rest == src
    ensures LoadTare(r.store) == LoadTare(store)
    ensures IsScaleUnitSaved(store) && LoadScaleUnit(store).Err? ==>
      r.out == Err(LoadScaleUnit(store).error) && r.rest == src
    ensures LoadScaleUnit(r.store).Ok? && IsZero(LoadScaleUnit(r.store).value.0) && AllReady(src, CALIBRATION_TIMES) ==>
      var unit := LoadScaleUnit(r.store).value.1;
      && r.out.Ok?
      && Value(r.out.value.scale) == MeanOf(src, CALIBRATION_TIMES) - Value(d.offset)
      && r.out.value == d.(scale := r.out.value.scale, unit := if unit != 0 then unit else d.unit)
      && r.rest == src[CALIBRATION_TIMES..]
    ensures LoadScaleUnit(r.store).Ok? && IsZero(LoadScaleUnit(r.store).value.0) && !AllReady(src, CALIBRATION_TIMES) ==>
      r.out == Err(DeviceIsNotReady)
    ensures r.out.Err? ==> r.out.error == DeviceIsNotReady || r.out.error == ValueError
    ensures r.out.Ok? ==> LoadScaleUnit(r.store).Ok?
    ensures r.out.Ok? && LoadScaleUnit(r.store).Ok? ==>
      var (scale, unit) := LoadScaleUnit(r.store).value;
      && r.out.value == d.(scale := r.out.value.scale, unit := if unit != 0 then unit else d.unit)
      && (!IsZero(scale) ==> r.out.value.scale == scale)
  {
    var saved := WithScaleRecord(store, defaultScale, defaultUnit);
    var applied := ApplyScaleRecord(d, LoadScaleUnit(saved), src);
    Booted(applied.out, saved, applied.rest)
  }

  /** The tare logic, then the scale logic, for a constructed driver. */
  function Restore(d: Driver, store: Store, src: Stream): (r: Booted)
    ensures r.out.Ok? ==> IsTareSaved(r.store) && IsScaleUnitSaved(r.store)
    ensures r.out.Ok? ==> r.out.value.channel == d.channel
    ensures IsTareSaved(store) ==> IsTareSaved(r.store) && r.store[TARE_RECORD] == store[TARE_RECORD]
    ensures IsScaleUnitSaved(store) ==> IsScaleUnitSaved(r.store) && r.store[SCALE_UNIT_RECORD] == store[SCALE_UNIT_RECORD]
    ensures forall k :: k in store && k != TARE_RECORD && k != SCALE_UNIT_RECORD ==> k in r.store && r.store[k] == store[k]
    ensures r.store.Keys <= store.Keys + {TARE_RECORD, SCALE_UNIT_RECORD}
    ensures !IsScaleUnitSaved(store) && IsScaleUnitSaved(r.store) ==>
      LoadScaleUnit(r.store) == Ok((DEFAULT_SCALE, DEFAULT_UNIT))
    ensures IsTareSaved(store) && LoadTare(store).Err? ==> r.out == Err(LoadTare(store).error)
    ensures SamplesTare(store) && !AllReady(src, CALIBRATION_TIMES) ==> r.out == Err(DeviceIsNotReady)
    ensures SamplesTare(store) && AllReady(src, CALIBRATION_TIMES) && r.out.Ok? ==>
      Value(r.out.value.offset) == MeanOf(src, CALIBRATION_TIMES)
    ensures r.out.Ok? && LoadScaleUnit(r.store).Ok? && LoadScaleUnit(r.store).value.1 == 0 ==>
      r.out.value.unit == d.unit
    ensures r.out.Ok? ==> LoadTare(r.store).Ok? && LoadScaleUnit(r.store).Ok?
    ensures r.out.Ok? && LoadTare(r.store).Ok? && !IsZero(LoadTare(r.store).value) ==>
      r.out.value.offset == LoadTare(r.store).value
    ensures r.out.Ok? && LoadScaleUnit(r.store).Ok? && !IsZero(LoadScaleUnit(r.store).value.0) ==>
      r.out.value.scale == LoadScaleUnit(r.store).value.0
    ensures r.out.Ok? && LoadScaleUnit(r.store).Ok? && LoadScaleUnit(r.store).value.1 != 0 ==>
      r.out.value.unit == LoadScaleUnit(r.store).value.1
    ensures r.out.Ok? && !IsTareSaved(store) ==> LoadTare(r.store) == Ok(r.out.value.offset)
    ensures IsScaleUnitSaved(store) && LoadScaleUnit(store).Err? ==> r.out.Err?
    ensures r.out.Err? ==> r.out.error == DeviceIsNotReady || r.out.error == ValueError
  {
    var t := BootTare(d, store, src);
    match t.out
    case Err(e) => t
    case Ok(tared) =>
      assert t.store.Keys == store.Keys + {TARE_RECORD};
      assert IsScaleUnitSaved(t.store) == IsScaleUnitSaved(store);
      BootScale(tared, t.store, t.rest, DEFAULT_SCALE, DEFAULT_UNIT)
  }

  /** The module-level start-up: construct the driver on channel A gain 128,
      then restore or create the tare and the scale records. */
  function Boot(store: Store, src: Stream): (r: Booted)
    ensures r.out.Ok? ==> IsTareSaved(r.store) && IsScaleUnitSaved(r.store)
    ensures IsTareSaved(store) ==> IsTareSaved(r.store) && r.store[TARE_RECORD] == store[TARE_RECORD]
    ensures IsScaleUnitSaved(store) ==> IsScaleUnitSaved(r.store) && r.store[SCALE_UNIT_RECORD] == store[SCALE_UNIT_RECORD]
    ensures forall k :: k in store && k != TARE_RECORD && k != SCALE_UNIT_RECORD ==> k in r.store && r.store[k] == store[k]
    ensures r.store.Keys <= store.Keys + {TARE_RECORD, SCALE_UNIT_RECORD}
    ensures !IsScaleUnitSaved(store) && IsScaleUnitSaved(r.store) ==>
      LoadScaleUnit(r.store) == Ok((DEFAULT_SCALE, DEFAULT_UNIT))
    ensures r.out.Ok? ==> r.out.value.channel == A128
    ensures !Available(src) ==> r.out == Err(DeviceIsNotReady) && r.store == store
    ensures Available(src) && IsTareSaved(store) && LoadTare(store).Err? ==> r.out == Err(LoadTare(store).error)
    ensures Available(src) && SamplesTare(store) && !AllReady(src[1..], CALIBRATION_TIMES) ==>
      r.out == Err(DeviceIsNotReady)
    ensures Available(src) && SamplesTare(store) && AllReady(src[1..], CALIBRATION_TIMES) && r.out.Ok? ==>
      Value(r.out.value.offset) == MeanOf(src[1..], CALIBRATION_TIMES)
    ensures r.out.Ok? && LoadScaleUnit(r.store).Ok? && LoadScaleUnit(r.store).value.1 == 0 ==>
      r.out.value.unit == 1
    ensures r.out.Ok? ==> LoadTare(r.store).Ok? && LoadScaleUnit(r.store).Ok?
    ensures r.out.Ok? && LoadTare(r.store).Ok? && !IsZero(LoadTare(r.store).value) ==>
      r.out.value.offset == LoadTare(r.store).value
    ensures r.out.Ok? && LoadScaleUnit(r.store).Ok? && !IsZero(LoadScaleUnit(r.store).value.0) ==>
      r.out.value.scale == LoadScaleUnit(r.store).value.0
    ensures r.out.Ok? && LoadScaleUnit(r.store).Ok? && LoadScaleUnit(r.store).value.1 != 0 ==>
      r.out.value.unit == LoadScaleUnit(r.store).value.1
    ensures r.out.Ok? && !IsTareSaved(store) ==> LoadTare(r.store) == Ok(r.out.value.offset)
    ensures IsScaleUnitSaved(store) && LoadScaleUnit(store).Err? ==> r.out.Err?
    ensures r.out.Err? ==> r.out.error == DeviceIsNotReady || r.out.error == ValueError
  {
    var init := Init(CHANNEL_A_128, src);
    match init.out
    case Err(e) => Booted(Err(e), store, init.rest)
    case Ok(d) => Restore(d, store, init.rest)
  }

  /** With both records saved by an earlier run and non-zero, boot applies
      them, writes nothing, and reads nothing but the conversion the channel
      selection discards. */
  lemma WarmBootTakesNoSamples(files: Store, offset: Rat, scale: Rat, unit: int, src: Stream)
    requires !IsZero(offset) && !IsZero(scale) && unit != 0
    requires Available(src)
    ensures var store := SaveScaleUnit(SaveTare(files, offset), scale, unit);
      var r := Boot(store, src);
      && r.out == Ok(Driver(A128, offset, scale, unit))
      && r.store == store
      && r.rest == src[1..]
      && Persisted(Controller(r.out.value, r.store))
  {
    var tared := SaveTare(files, offset);
    TareRoundTrip(files, offset);
    RecordsIndependent(tared, offset, scale, unit);
    ScaleUnitRoundTrip(tared, scale, unit);
  }

  /** A store holding the records written from a driver's own calibration
      agrees with that driver. */
  lemma SavedIsPersisted(files: Store, drv: Driver)
    ensures Persisted(Controller(drv, SaveScaleUnit(SaveTare(files, drv.offset), drv.scale, drv.unit)))
  {
    var tared := SaveTare(files, drv.offset);
    TareRoundTrip(files, drv.offset);
    ScaleUnitRoundTrip(tared, drv.scale, drv.unit);
    RecordsIndependent(tared, drv.offset, drv.scale, drv.unit);
  }

  /** Restoring onto a store that holds neither record tares over fresh
      reads, saves that tare, then writes and applies the default scale
      record; the other files are kept. */
  lemma RestoreWithoutRecords(d: Driver, files: Store, src: Stream)
    requires !IsTareSaved(files) && !IsScaleUnitSaved(files)
    requires AllReady(src, CALIBRATION_TIMES)
    ensures var r := Restore(d, files, src);
      && r.out.Ok?
      && r.out.value == d.(offset := r.out.value.offset, scale := DEFAULT_SCALE, unit := DEFAULT_UNIT)
      && Value(r.out.value.offset) == MeanOf(src, CALIBRATION_TIMES)
      && r.store == SaveScaleUnit(SaveTare(files, r.out.value.offset), DEFAULT_SCALE, DEFAULT_UNIT)
      && r.rest == src[CALIBRATION_TIMES..]
  {
    var t := BootTare(d, files, src);
    var tared := SaveTare(files, t.out.value.offset);
    assert !IsScaleUnitSaved(tared);
    assert !IsZero(DEFAULT_SCALE);
  }

  /** On a store that holds neither record, boot tares over fresh reads,
      saves that tare and the default scale record, and ends with store and
      driver in agreement. */
  lemma FirstBootPersists(files: Store, src: Stream)
    requires !IsTareSaved(files) && !IsScaleUnitSaved(files)
    requires Available(src) && AllReady(src[1..], CALIBRATION_TIMES)
    ensures var r := Boot(files, src);
      && r.out.Ok?
      && Value(r.out.value.offset) == MeanOf(src[1..], CALIBRATION_TIMES)
      && r.out.value.scale == DEFAULT_SCALE && r.out.value.unit == DEFAULT_UNIT
      && Persisted(Controller(r.out.value, r.store))
      && r.rest == src[1 + CALIBRATION_TIMES..]
  {
    var init := Init(CHANNEL_A_128, src);
    assert init.out.Ok? && init.rest == src[1..];
    RestoreWithoutRecords(init.out.value, files, src[1..]);
    var r := Restore(init.out.value, files, src[1..]);
    SavedIsPersisted(files, r.out.value);
    assert src[1..][CALIBRATION_TIMES..] == src[1 + CALIBRATION_TIMES..];
  }

  /** A saved tare of zero is falsy: boot samples a fresh tare instead and
      does not save it. */
  lemma ZeroTareIsResampled(store: Store, src: Stream)
    requires LoadTare(store) == Ok(Of(0))
    requires Available(src) && AllReady(src[1..], CALIBRATION_TIMES)
    ensures var r := BootTare(Init(CHANNEL_A_128, src).out.value, store, src[1..]);
      r.out.Ok? && Value(r.out.value.offset) == MeanOf(src[1..], CALIBRATION_TIMES) && r.store == store
  {
  }

  /** The identifier the controller reports under: the version after a
      fixed prefix; it holds a ";" only when the version does. */
  function ControllerId(idVersion: string): (id: string)
    ensures |id| > |idVersion| && id[|id| - |idVersion|..] == idVersion
    ensures ';' in id <==> ';' in idVersion
  {
    var id := "hazay_" + idVersion;
    assert forall k :: 0 <= k < |idVersion| ==> id[6 + k] == idVersion[k];
    id
  }

  /** The line sent each pass: the reading, ";" and the controller id. The
      reading is recovered from the line's first field. */
  function Report(grams: int, idVersion: string): (line: string)
    ensures ';' !in idVersion ==>
      var fields := Split(line, ';');
      |fields| == 2 && fields[1] == ControllerId(idVersion) && ParseInt(fields[0]) == Some(grams)
  {
    var id := ControllerId(idVersion);
    assert ';' !in IntText(grams);
    if ';' in idVersion then IntText(grams) + ";" + id
    else
      assert ';' !in id;
      SplitAtFirst(IntText(grams), ';', id);
      SplitWithout(id, ';');
      ParseIntText(grams, "");
      assert IntText(grams) + "" == IntText(grams);
      IntText(grams) + ";" + id
  }

  /** Result of one pass of the main loop: the report sent, if any. */
  datatype Reported = Reported(out: Result<string>, ctl: Controller, rest: Stream)

  /** One pass of the main loop: handle a received buffer if there is one,
      then send the reading in grams of the driver as the dispatch left it,
      taken from the conversions the dispatch did not consume. A failed
      dispatch or a failed reading sends nothing and raises its error. */
  function Iterate(c: Controller, src: Stream, received: Option<string>, idVersion: string): (r: Reported)
    ensures received.None? ==> r.ctl == c
    ensures received.Some? ==> r.ctl == Dispatch(c, src, received.value).ctl
    ensures var h := if received.Some? then Dispatch(c, src, received.value) else Handled(Ok(()), c, src);
      && (h.out.Err? ==> r.out == Err(h.out.error) && r.rest == h.rest)
      && (h.out.Ok? ==>
            var g := GetReadingInGrams(h.ctl.drv, h.rest);
            && r.rest == g.rest
            && (g.out.Ok? ==> r.out == Ok(Report(g.out.value, idVersion)))
            && (g.out.Err? ==> r.out == Err(g.out.error)))
    ensures r.out.Ok? ==> exists grams :: grams >= 0 && r.out.value == Report(grams, idVersion)
  {
    var h := if received.Some? then Dispatch(c, src, received.value) else Handled(Ok(()), c, src);
    if h.out.Err? then Reported(Err(h.out.error), h.ctl, h.rest)
    else
      var g := GetReadingInGrams(h.ctl.drv, h.rest);
      match g.out
      case Err(e) => Reported(Err(e), h.ctl, g.rest)
      case Ok(grams) => Reported(Ok(Report(grams, idVersion)), h.ctl, g.rest)
  }

  /** With nothing received, a pass reports the grams the next three
      conversions weigh under the controller's calibration. */
  lemma IdleReport(c: Controller, src: Stream, idVersion: string)
    requires AllReady(src, DEFAULT_TIMES) && !IsZero(c.drv.scale)
    ensures var r := Iterate(c, src, None, idVersion);
      && r.ctl == c
      && r.rest == src[DEFAULT_TIMES..]
      && exists units: Rat ::
           && Value(units) == ExpectedUnits(c.drv, src)
           && r.out == Ok(Report(Grams(units, c.drv.unit), idVersion))
  {
    var units := GetUnits(c.drv, src).out.value;
    assert Value(units) == ExpectedUnits(c.drv, src);
  }
}

=== FILE: fractions.dfy ===
/** The calibration figures (offset, scale, averages, quotients) are Python
    floats. They are modelled here as exact fractions num/den with a positive
    denominator: the arithmetic the firmware performs is exact, and Python's
    rounding to the nearest float is abstracted away. */
module Fractions {

  datatype Fraction = Fraction(num: int, den: int)

  type Rat = q: Fraction | q.den > 0 witness Fraction(0, 1)

  /** The number a fraction stands for. */
  function Value(q: Rat): real
  {
    q.num as real / q.den as real
  }

  function Of(i: int): (q: Rat)
    ensures Value(q) == i as real
  {
    Fraction(i, 1)
  }

  /** Python's falsiness of a number: it is zero. */
  predicate IsZero(q: Rat)
    ensures IsZero(q) <==> Value(q) == 0.0
  {
    q.num == 0
  }

  lemma ScaledFraction(n: int, d: int, k: int)
    requires d != 0 && k != 0
    ensures (n * k) as real / (d * k) as real == n as real / d as real
  {
    var nr, dr, kr := n as real, d as real, k as real;
    assert (n * k) as real == nr * kr;
    assert (d * k) as real == dr * kr;
    assert (nr * kr) / (dr * kr) == nr / dr;
  }

  /** The value is a whole number. */
  predicate Integral(x: real)
  {
    x.Floor as real == x
  }

  lemma WholeQuotient(n: int, d: int)
    requires d > 0 && n % d == 0
    ensures (n / d) as real == n as real / d as real
  {
    assert n == d * (n / d);
    assert n as real == d as real * (n / d) as real;
  }

  lemma ModOfMultiple(k: int, d: int)
    requires d > 0
    ensures (k * d) % d == 0
  {
    var n := k * d;
    var t := k - n / d;
    assert d * t == n % d;
    if t >= 1 {
      assert d * t == d + d * (t - 1);
    } else if t <= -1 {
      assert d * t == -d + d * (t + 1);
    }
  }

  lemma FractionNotWhole(n: int, d: int)
    requires d > 0 && n % d != 0
    ensures !Integral(n as real / d as real)
  {
    var x := n as real / d as real;
    var k := x.Floor;
    if k as real == x {
      assert n as real == k as real * d as real;
      assert n == k * d;
      ModOfMultiple(k, d);
      assert false;
    }
  }

  /** The fraction n/d, written over 1 whenever d divides n: the fractions
      the arithmetic below produces have denominator 1 exactly when their
      value is whole, which is what str() needs to print "200.0". */
  function Normal(n: int, d: int): (q: Rat)
    requires d > 0
    ensures Value(q) == n as real / d as real
    ensures q.den == 1 <==> Integral(Value(q))
  {
    if n % d == 0 then
      WholeQuotient(n, d);
      Fraction(n / d, 1)
    else
      FractionNotWhole(n, d);
      Fraction(n, d)
  }

  /** Python's true division `n / d` of two integers. */
  function Quotient(n: int, d: int): (q: Rat)
    requires d != 0
    ensures Value(q) == n as real / d as real
    ensures q.den == 1 <==> Integral(Value(q))
  {
    if d > 0 then Normal(n, d)
    else
      ScaledFraction(n, d, -1);
      Normal(-n, -d)
  }

  /** `a - b`. */
  function Minus(a: Rat, b: Rat): (q: Rat)
    ensures Value(q) == Value(a) - Value(b)
    ensures q.den == 1 <==> Integral(Value(q))
  {
    var an, ad, bn, bd := a.num as real, a.den as real, b.num as real, b.den as real;
    assert (a.num * b.den - b.num * a.den) as real == an * bd - bn * ad;
    assert (a.den * b.den) as real == ad * bd;
    assert (an * bd - bn * ad) / (ad * bd) == an / ad - bn / bd;
    Normal(a.num * b.den - b.num * a.den, a.den * b.den)
  }

  /** `a / b`, defined when b is non-zero. */
  function Over(a: Rat, b: Rat): (q: Rat)
    requires !IsZero(b)
    ensures Value(q) == Value(a) / Value(b)
    ensures q.den == 1 <==> Integral(Value(q))
  {
    var an, ad, bn, bd := a.num as real, a.den as real, b.num as real, b.den as real;
    assert (a.num * b.den) as real == an * bd;
    assert (a.den * b.num) as real == ad * bn;
    assert (an * bd) / (ad * bn) == (an / ad) / (bn / bd);
    Quotient(a.num * b.den, a.den * b.num)
  }

  /** `a * k` for an integer k. */
  function Times(a: Rat, k: int): (q: Rat)
    ensures Value(q) == Value(a) * k as real
    ensures q.den == 1 <==> Integral(Value(q))
  {
    assert (a.num * k) as real == a.num as real * k as real;
    Normal(a.num * k, a.den)
  }

  /** Python's `max(x, 0)` on the values. */
  function Clamp(x: real): real
  {
    if x < 0.0 then 0.0 else x
  }

  /** Python's `max(a, 0)`. */
  function AtLeastZero(a: Rat): (q: Rat)
    ensures Value(q) == Clamp(Value(a)) && Value(q) >= 0.0
    ensures Value(a) >= 0.0 ==> q == a
  {
    if a.num < 0 then Of(0) else a
  }

  /** Python's `abs(a)`. */
  function Magnitude(a: Rat): (q: Rat)
    ensures Value(q) >= 0.0
    ensures Value(q) == Value(a) || Value(q) == -Value(a)
  {
    if a.num < 0 then Fraction(-a.num, a.den) else a
  }

  /** Python's `int(a)` of a float: rounds toward zero. */
  function Truncate(a: Rat): (i: int)
    ensures Value(a) >= 0.0 ==> i as real <= Value(a) < i as real + 1.0
    ensures Value(a) < 0.0 ==> i as real - 1.0 < Value(a) <= i as real
  {
    if a.num >= 0 then Value(a).Floor else -((-Value(a)).Floor)
  }
}

=== FILE: hx711.dfy ===
/** The HX711 driver object and its two-wire protocol: PD_SCK clock pulses
    issued by the driver, DOUT samples taken after each data pulse, and the
    trailing pulses that select the input channel and gain of the next
    conversion. */
module Hx711 {
  import opened Outcomes
  import opened Bits
  import opened Fractions

  /** Pulse counts the driver accepts for a channel/gain selection. */
  const CHANNEL_A_128: nat := 1
  const CHANNEL_A_64: nat := 3
  const CHANNEL_B_32: nat := 2

  datatype Gain = A128 | A64 | B32

  /** The number of trailing pulses `_set_channel` issues for a selection:
      with the 24 data pulses the converter counts the total its datasheet
      assigns to that selection. */
  function SelectPulses(g: Gain): (n: nat)
    ensures ConverterSelection(DATA_BITS + n) == Some(g)
  {
    match g
    case A128 => CHANNEL_A_128
    case A64 => CHANNEL_A_64
    case B32 => CHANNEL_B_32
  }

  /** The membership test of the channel setter: which selection a requested
      pulse count names, if any. */
  function GainOf(value: int): (r: Option<Gain>)
    ensures r.Some? <==> value == 1 || value == 2 || value == 3
    ensures r.Some? ==> SelectPulses(r.value) == value
  {
    if value == CHANNEL_A_128 then Some(A128)
    else if value == CHANNEL_A_64 then Some(A64)
    else if value == CHANNEL_B_32 then Some(B32)
    else None
  }

  lemma GainOfSelectPulses(g: Gain)
    ensures GainOf(SelectPulses(g)) == Some(g)
  {
  }

  /** The `channel` property getter: (input, gain). */
  function ChannelInfo(g: Gain): (r: (char, nat))
    ensures r.0 == (if g == B32 then 'B' else 'A')
    ensures r.1 == 128 <==> g == A128
    ensures r.1 == 64 <==> g == A64
    ensures r.1 == 32 <==> g == B32
  {
    match g
    case A128 => ('A', 128)
    case A64 => ('A', 64)
    case B32 => ('B', 32)
  }

  /** One step on the wire: a PD_SCK pulse (high then low) or a read of DOUT. */
  datatype Action = Pulse | Sample

  /** The DOUT levels a conversion presents at the driver's 24 samples. */
  type Frame = s: seq<bool> | |s| == DATA_BITS witness BitsOf(0, DATA_BITS)

  /** What the converter offers when the driver next waits for it: a finished
      conversion, or nothing before the ready timeout expires. */
  datatype Conversion = Ready(frame: Frame) | Stalled

  /** The conversions the converter offers, in order; each wait consumes one.
      An exhausted stream behaves as a stalled converter. */
  type Stream = seq<Conversion>

  /** `is_ready()` holds, or `_wait()` sees DOUT go low before the timeout:
      the converter has a finished conversion waiting, neither stalled nor
      exhausted. */
  predicate Available(src: Stream)
  {
    |src| > 0 && src[0].Ready?
  }

  /** What remains of the stream after one wait. */
  function Advance(src: Stream): Stream
  {
    if |src| == 0 then [] else src[1..]
  }

  /** The signed value `read()` makes of a conversion (0 for a stalled one):
      the two's-complement reading of the frame taken most significant bit first. */
  function Code(c: Conversion): (n: int)
    ensures c.Ready? ==> n == FromTwosComplement(Weight(c.frame))
  {
    if c.Ready? then
      ShiftInIsWeight(0, c.frame);
      FromTwosComplement(ShiftIn(0, c.frame))
    else 0
  }

  /** The HX711 object: selected channel and the calibration attributes. */
  datatype Driver = Driver(channel: Gain, offset: Rat, scale: Rat, unit: int)

  /** The read loop's wire activity: n times a pulse followed by a sample. */
  function DataClocks(n: nat): (bus: seq<Action>)
    ensures |bus| == 2 * n
  {
    if n == 0 then [] else DataClocks(n - 1) + [Pulse, Sample]
  }

  /** n bare clock pulses, as `_set_channel` and the setter's discard loop issue. */
  function Clocks(n: nat): (bus: seq<Action>)
    ensures |bus| == n
  {
    if n == 0 then [] else Clocks(n - 1) + [Pulse]
  }

  lemma {:induction false} DataClocksShape(n: nat)
    ensures forall i :: 0 <= i < 2 * n ==> DataClocks(n)[i] == (if i % 2 == 0 then Pulse else Sample)
  {
    if n > 0 {
      DataClocksShape(n - 1);
    }
  }

  lemma {:induction false} ClocksShape(n: nat)
    ensures forall i :: 0 <= i < n ==> Clocks(n)[i] == Pulse
  {
    if n > 0 {
      ClocksShape(n - 1);
    }
  }

  /** A frame read on the wire: DATA_BITS pulse-then-sample pairs, then k
      pulses and no further sample. */
  predicate FrameThenSelect(bus: seq<Action>, k: nat)
  {
    && |bus| == 2 * DATA_BITS + k
    && (forall i :: 0 <= i < 2 * DATA_BITS ==> bus[i] == (if i % 2 == 0 then Pulse else Sample))
    && (forall i :: 2 * DATA_BITS <= i < |bus| ==> bus[i] == Pulse)
  }

  function CountPulses(bus: seq<Action>): nat
  {
    if |bus| == 0 then 0 else CountPulses(bus[..|bus| - 1]) + (if bus[|bus| - 1] == Pulse then 1 else 0)
  }

  /** The converter's side of the selection protocol: after a frame it reads
      25 pulses in all as channel A gain 128, 26 as channel B gain 32 and 27
      as channel A gain 64. */
  function ConverterSelection(totalPulses: nat): Option<Gain>
  {
    if totalPulses == 25 then Some(A128)
    else if totalPulses == 26 then Some(B32)
    else if totalPulses == 27 then Some(A64)
    else None
  }

  lemma {:induction false} CountPulsesAppend(a: seq<Action>, b: seq<Action>)
    ensures CountPulses(a + b) == CountPulses(a) + CountPulses(b)
    decreases |b|
  {
    if |b| > 0 {
      assert (a + b)[..|a + b| - 1] == a + b[..|b| - 1];
      CountPulsesAppend(a, b[..|b| - 1]);
    } else {
      assert a + b == a;
    }
  }

  lemma {:induction false} CountDataClocks(n: nat)
    ensures CountPulses(DataClocks(n)) == n
  {
    if n > 0 {
      CountDataClocks(n - 1);
      CountPulsesAppend(DataClocks(n - 1), [Pulse, Sample]);
      assert [Pulse, Sample][..1] == [Pulse];
    }
  }

  lemma {:induction false} CountClocks(n: nat)
    ensures CountPulses(Clocks(n)) == n
  {
    if n > 0 {
      CountClocks(n - 1);
      CountPulsesAppend(Clocks(n - 1), [Pulse]);
    }
  }

  /** The converter decodes the pulses of a read or a selection as the gain
      the driver selected. */
  lemma SelectionReachesConverter(g: Gain)
    ensures ConverterSelection(CountPulses(DataClocks(DATA_BITS) + Clocks(SelectPulses(g)))) == Some(g)
    ensures ConverterSelection(CountPulses(Clocks(DATA_BITS) + Clocks(SelectPulses(g)))) == Some(g)
  {
    var n := SelectPulses(g);
    CountPulsesAppend(DataClocks(DATA_BITS), Clocks(n));
    CountPulsesAppend(Clocks(DATA_BITS), Clocks(n));
    CountDataClocks(DATA_BITS);
    CountClocks(DATA_BITS);
    CountClocks(n);
    assert CountPulses(DataClocks(DATA_BITS) + Clocks(n)) == DATA_BITS + n;
    assert CountPulses(Clocks(DATA_BITS) + Clocks(n)) == DATA_BITS + n;
  }

  /** Outcome of a wire-level operation: its result, the driver's clock and
      sample activity, and the conversions not yet consumed. */
  datatype Clocked<T> = Clocked(out: Result<T>, bus: seq<Action>, rest: Stream)

  /** `read(raw)`: wait for a conversion, shift in 24 bits MSB first, then
      issue the selection pulses for the next conversion. */
  function Read(ch: Gain, src: Stream, raw: bool): (r: Clocked<int>)
    ensures r.rest == Advance(src)
    ensures !Available(src) ==> r.out == Err(DeviceIsNotReady) && r.bus == []
    ensures Available(src) && raw ==> r.out == Ok(Weight(src[0].frame))
    ensures Available(src) && raw ==> 0 <= r.out.value < FRAME_SPAN
    ensures Available(src) && !raw ==> r.out == Ok(FromTwosComplement(Weight(src[0].frame)))
    ensures Available(src) && !raw ==> -(MIN_VALUE as int) <= r.out.value <= MAX_VALUE
    ensures Available(src) ==> r.bus == DataClocks(DATA_BITS) + Clocks(SelectPulses(ch))
  {
    if !Available(src) then Clocked(Err(DeviceIsNotReady), [], Advance(src))
    else
      var frame := src[0].frame;
      var rawData := ShiftIn(0, frame);
      ShiftInIsWeight(0, frame);
      WeightBound(frame);
      FrameConstants();
      var bus := DataClocks(DATA_BITS) + Clocks(SelectPulses(ch));
      Clocked(Ok(if raw then rawData else FromTwosComplement(rawData)), bus, src[1..])
  }

  /** On the wire a read is 24 pulse-then-sample pairs followed by the
      selection pulses, with no further sample. */
  lemma ReadClocking(ch: Gain, src: Stream, raw: bool)
    requires Available(src)
    ensures FrameThenSelect(Read(ch, src, raw).bus, SelectPulses(ch))
  {
    DataClocksShape(DATA_BITS);
    ClocksShape(SelectPulses(ch));
    FrameConstants();
  }

  /** The frame a converter shifts out for a signed result x. */
  function ConverterFrame(x: int): Frame
  {
    BitsOf(ToTwosComplement(x), DATA_BITS)
  }

  /** The signed result a converter sends is the value its frame carries. */
  lemma CodeOfConverterFrame(x: int)
    requires -(MIN_VALUE as int) <= x <= MAX_VALUE
    ensures Code(Ready(ConverterFrame(x))) == x
  {
    FrameConstants();
    WeightOfBitsOf(ToTwosComplement(x), DATA_BITS);
    ShiftInIsWeight(0, ConverterFrame(x));
    ValueRoundTrip(x);
  }

  /** A signed result sent by the converter is what `read()` returns. */
  lemma ReadRecoversConversion(ch: Gain, x: int, src: Stream)
    requires -(MIN_VALUE as int) <= x <= MAX_VALUE
    ensures Read(ch, [Ready(ConverterFrame(x))] + src, false).out == Ok(x)
  {
    CodeOfConverterFrame(x);
  }

  /** Outcome of the channel setter: the driver afterwards, even when an
      exception is raised. */
  datatype Selected = Selected(out: Result<()>, drv: Driver, bus: seq<Action>, rest: Stream)

  /** The `channel` setter: reject an unknown pulse count before anything
      changes; otherwise record it, wait for a conversion, clock its 24 bits
      out unread and issue the selection pulses. */
  function SetChannel(d: Driver, value: int, src: Stream): (r: Selected)
    ensures GainOf(value).None? ==> r.out == Err(InvalidMode) && r.drv == d && r.bus == [] && r.rest == src
    ensures GainOf(value).Some? ==> r.drv == d.(channel := GainOf(value).value) && r.rest == Advance(src)
    ensures GainOf(value).Some? && !Available(src) ==> r.out == Err(DeviceIsNotReady) && r.bus == []
    ensures GainOf(value).Some? && Available(src) ==> r.out.Ok?
    ensures GainOf(value).Some? && Available(src) ==>
      |r.bus| == DATA_BITS + value && forall i :: 0 <= i < |r.bus| ==> r.bus[i] == Pulse
  {
    match GainOf(value)
    case None => Selected(Err(InvalidMode), d, [], src)
    case Some(g) =>
      var d' := d.(channel := g);
      if !Available(src) then Selected(Err(DeviceIsNotReady), d', [], Advance(src))
      else
        ClocksShape(DATA_BITS);
        ClocksShape(SelectPulses(g));
        Selected(Ok(()), d', Clocks(DATA_BITS) + Clocks(SelectPulses(g)), src[1..])
  }

  /** The converter applies the selection made by a successful setter call. */
  lemma SetChannelReachesConverter(d: Driver, value: int, src: Stream)
    requires SetChannel(d, value, src).out.Ok?
    ensures ConverterSelection(CountPulses(SetChannel(d, value, src).bus)) == GainOf(value)
    ensures ChannelInfo(SetChannel(d, value, src).drv.channel) ==
      (if value == 1 then ('A', 128) else if value == 3 then ('A', 64) else ('B', 32))
  {
    SelectionReachesConverter(GainOf(value).value);
  }

  /** `HX711(d_out, pd_sck, channel)`: select the channel, then zero offset,
      unit scale and unit. */
  function Init(channel: int, src: Stream): (r: Clocked<Driver>)
    ensures r.out.Ok? <==> GainOf(channel).Some? && Available(src)
    ensures r.out.Ok? ==> r.out.value.channel == GainOf(channel).value
    ensures r.out.Ok? ==> Value(r.out.value.offset) == 0.0 && Value(r.out.value.scale) == 1.0 && r.out.value.unit == 1
    ensures GainOf(channel).None? ==> r.out == Err(InvalidMode) && r.rest == src
    ensures GainOf(channel).Some? && !Available(src) ==> r.out == Err(DeviceIsNotReady)
    ensures GainOf(channel).Some? ==> r.rest == Advance(src)
  {
    var s := SetChannel(Driver(A128, Of(0), Of(1), 1), channel, src);
    match s.out
    case Err(e) => Clocked(Err(e), s.bus, s.rest)
    case Ok(_) => Clocked(Ok(s.drv.(offset := Of(0), scale := Of(1), unit := 1)), s.bus, s.rest)
  }

  /** `power_on()`: after the clock returns low the converter has reset to
      its default selection, so the driver's channel is selected again. */
  function PowerOn(d: Driver, src: Stream): (r: Selected)
    ensures r.drv == d
    ensures r.rest == Advance(src)
    ensures r.out.Ok? <==> Available(src)
    ensures !Available(src) ==> r.out == Err(DeviceIsNotReady)
    ensures r.out.Ok? ==> ConverterSelection(CountPulses(r.bus)) == Some(d.channel)
  {
    GainOfSelectPulses(d.channel);
    SelectionReachesConverter(d.channel);
    SetChannel(d, SelectPulses(d.channel), src)
  }
}

=== FILE: outcomes.dfy ===
/** Failure-carrying values shared by every part of the driver model.
    Python exceptions become `Err` values; the kinds below are the ones the
    firmware can raise along the modelled paths. */
module Outcomes {

  datatype Option<+T> = None | Some(value: T)

  datatype Error =
    | InvalidMode        // the channel setter was given an unsupported pulse count
    | DeviceIsNotReady   // no conversion became ready within the ready timeout
    | ZeroDivision       // Python's ZeroDivisionError
    | IndexError         // a field of a split() that is not there
    | ValueError         // int()/float() of malformed text, or a failed tuple unpack
    | MissingRecord      // open() of a record the store does not hold (OSError)

  datatype Result<+T> = Ok(value: T) | Err(error: Error)
}

=== FILE: persistence.dfy ===
/** The two calibration records the firmware keeps in its flash file system,
    with the file system modelled as a map from file name to contents. */
module Persistence {
  import opened Outcomes
  import opened Fractions
  import opened Text

  type Store = map<string, string>

  const TARE_RECORD: string := "tare"
  const SCALE_UNIT_RECORD: string := "scale_unit"

  /** `is_tare_saved()`: the tare file exists, which is exactly when loading
      it does not report it missing. */
  function IsTareSaved(store: Store): (saved: bool)
    ensures saved <==> LoadTare(store) != Err(MissingRecord)
  {
    TARE_RECORD in store
  }

  /** `is_scale_unit_saved()`: the scale file exists, which is exactly when
      loading it does not report it missing. */
  function IsScaleUnitSaved(store: Store): (saved: bool)
    ensures saved <==> LoadScaleUnit(store) != Err(MissingRecord)
  {
    SCALE_UNIT_RECORD in store
  }

  /** `save_tare(offset)`: write str(offset) to the tare file. */
  function SaveTare(store: Store, offset: Rat): (r: Store)
    ensures r.Keys == store.Keys + {TARE_RECORD}
    ensures forall k :: k in store && k != TARE_RECORD ==> r[k] == store[k]
  {
    store[TARE_RECORD := RatText(offset)]
  }

  /** `load_saved_tare()`: float() of the tare file's contents; a missing
      file and text float() rejects are errors. */
  function LoadTare(store: Store): (r: Result<Rat>)
    ensures TARE_RECORD !in store ==> r == Err(MissingRecord)
    ensures TARE_RECORD in store && ParseRat(store[TARE_RECORD]).Some? ==>
      r == Ok(ParseRat(store[TARE_RECORD]).value)
    ensures TARE_RECORD in store && ParseRat(store[TARE_RECORD]).None? ==> r == Err(ValueError)
  {
    if TARE_RECORD !in store then Err(MissingRecord)
    else
      match ParseRat(store[TARE_RECORD])
      case Some(q) => Ok(q)
      case None => Err(ValueError)
  }

  /** The contents `save_scale_unit` writes: str(scale) + ":" + str(unit),
      which splits at ":" into exactly the two numbers' texts. */
  function ScaleUnitText(scale: Rat, unit: int): (text: string)
    ensures Split(text, ':') == [RatText(scale), IntText(unit)]
  {
    var st, ut := RatText(scale), IntText(unit);
    assert ':' !in st;
    assert ':' !in ut;
    SplitAtFirst(st, ':', ut);
    SplitWithout(ut, ':');
    st + [':'] + ut
  }

  /** `save_scale_unit(scale, unit)`. */
  function SaveScaleUnit(store: Store, scale: Rat, unit: int): (r: Store)
    ensures r.Keys == store.Keys + {SCALE_UNIT_RECORD}
    ensures forall k :: k in store && k != SCALE_UNIT_RECORD ==> r[k] == store[k]
  {
    store[SCALE_UNIT_RECORD := ScaleUnitText(scale, unit)]
  }

  /** `load_saved_scale_unit()`: split the contents at ":" into exactly two
      fields, then float() the first and int() the second; a missing file,
      a wrong number of fields and a field that does not parse are errors. */
  function LoadScaleUnit(store: Store): (r: Result<(Rat, int)>)
    ensures SCALE_UNIT_RECORD !in store ==> r == Err(MissingRecord)
    ensures SCALE_UNIT_RECORD in store ==>
      var fields := Split(store[SCALE_UNIT_RECORD], ':');
      && (|fields| != 2 ==> r == Err(ValueError))
      && (|fields| == 2 && ParseRat(fields[0]).Some? && ParseInt(fields[1]).Some? ==>
            r == Ok((ParseRat(fields[0]).value, ParseInt(fields[1]).value)))
      && (|fields| == 2 && (ParseRat(fields[0]).None? || ParseInt(fields[1]).None?) ==>
            r == Err(ValueError))
  {
    if SCALE_UNIT_RECORD !in store then Err(MissingRecord)
    else
      var fields := Split(store[SCALE_UNIT_RECORD], ':');
      if |fields| != 2 then Err(ValueError)
      else
        match (ParseRat(fields[0]), ParseInt(fields[1]))
        case (Some(scale), Some(unit)) => Ok((scale, unit))
        case _ => Err(ValueError)
  }

  /** Reading the tare back gives the offset saved. */
  lemma TareRoundTrip(store: Store, offset: Rat)
    ensures LoadTare(SaveTare(store, offset)) == Ok(offset)
  {
    RatTextRoundTrip(offset);
  }

  /** Reading the scale record back gives the scale and unit saved. */
  lemma ScaleUnitRoundTrip(store: Store, scale: Rat, unit: int)
    ensures LoadScaleUnit(SaveScaleUnit(store, scale, unit)) == Ok((scale, unit))
  {
    var fields := Split(ScaleUnitText(scale, unit), ':');
    assert fields == [RatText(scale), IntText(unit)];
    RatTextRoundTrip(scale);
    ParseIntText(unit, "");
    assert IntText(unit) + "" == IntText(unit);
  }

  /** Saving one record leaves the other readable as before. */
  lemma RecordsIndependent(store: Store, offset: Rat, scale: Rat, unit: int)
    ensures LoadScaleUnit(SaveTare(store, offset)) == LoadScaleUnit(store)
    ensures LoadTare(SaveScaleUnit(store, scale, unit)) == LoadTare(store)
  {
  }
}

=== FILE: text.dfy ===
/** The text the firmware reads and writes: Python's str() of integers and
    floats, int() and float() parsing, str.split, str.strip and the `in`
    substring test, over ASCII strings. */
module Text {
  import opened Outcomes
  import opened Fractions

  predicate IsDigit(c: char)
  {
    '0' <= c <= '9'
  }

  predicate AllDigits(s: string)
  {
    forall i :: 0 <= i < |s| ==> IsDigit(s[i])
  }

  function DigitChar(d: nat): (c: char)
    requires d < 10
    ensures IsDigit(c)
  {
    ('0' as int + d) as char
  }

  /** The number a string of decimal digits denotes. */
  function DigitsValue(s: string): nat
    requires AllDigits(s)
  {
    if |s| == 0 then 0 else 10 * DigitsValue(s[..|s| - 1]) + (s[|s| - 1] as int - '0' as int)
  }

  /** Python's str() of a non-negative integer. */
  function NatText(n: nat): (s: string)
    ensures |s| > 0 && AllDigits(s)
    decreases n
  {
    if n < 10 then [DigitChar(n)] else NatText(n / 10) + [DigitChar(n % 10)]
  }

  lemma {:induction false} NatTextValue(n: nat)
    ensures DigitsValue(NatText(n)) == n
    decreases n
  {
    if n >= 10 {
      NatTextValue(n / 10);
      var s := NatText(n);
      assert s[..|s| - 1] == NatText(n / 10);
    }
  }

  /** Python's str() of an integer. */
  function IntText(i: int): (s: string)
    ensures |s| > 0
    ensures forall k :: 0 <= k < |s| ==> IsDigit(s[k]) || s[k] == '-'
  {
    if i < 0 then "-" + NatText(-i) else NatText(i)
  }

  /** Digits only, at least one: the unsigned body of an int() literal. */
  function ParseNat(s: string): (r: Option<nat>)
    ensures r.Some? <==> |s| > 0 && AllDigits(s)
  {
    if |s| > 0 && AllDigits(s) then Some(DigitsValue(s)) else None
  }

  /** An optionally signed decimal integer, with no surrounding space. */
  function ParseSigned(s: string): (r: Option<int>)
  {
    if |s| > 0 && s[0] == '-' then
      match ParseNat(s[1..])
      case Some(n) => Some(0 - n)
      case None => None
    else if |s| > 0 && s[0] == '+' then
      match ParseNat(s[1..])
      case Some(n) => Some(n)
      case None => None
    else
      match ParseNat(s)
      case Some(n) => Some(n)
      case None => None
  }

  lemma NatTextRoundTrip(n: nat)
    ensures ParseNat(NatText(n)) == Some(n)
  {
    NatTextValue(n);
  }

  lemma IntTextRoundTrip(i: int)
    ensures ParseSigned(IntText(i)) == Some(i)
  {
    NatTextValue(if i < 0 then -i else i);
    if i < 0 {
      assert IntText(i)[1..] == NatText(-i);
    }
  }

  /** The characters Python's argument-less strip() removes, in ASCII. */
  predicate IsSpace(c: char)
  {
    c == ' ' || c == '\t' || c == '\n' || c == '\r' || c == '\U{B}' || c == '\U{C}'
  }

  function TrimStart(s: string): (r: string)
    ensures |r| <= |s| && r == s[|s| - |r|..]
    ensures |r| > 0 ==> !IsSpace(r[0])
    ensures forall k :: 0 <= k < |s| - |r| ==> IsSpace(s[k])
  {
    if |s| > 0 && IsSpace(s[0]) then
      var r := TrimStart(s[1..]);
      assert s[1..][|s| - 1 - |r|..] == s[|s| - |r|..];
      assert forall k :: 1 <= k < |s| - |r| ==> s[1..][k - 1] == s[k];
      r
    else s
  }

  function TrimEnd(s: string): (r: string)
    ensures |r| <= |s| && r == s[..|r|]
    ensures |r| > 0 ==> !IsSpace(r[|r| - 1])
    ensures forall k :: |r| <= k < |s| ==> IsSpace(s[k])
  {
    if |s| > 0 && IsSpace(s[|s| - 1]) then TrimEnd(s[..|s| - 1]) else s
  }

  /** Python's str.strip(). */
  function Strip(s: string): string
  {
    TrimEnd(TrimStart(s))
  }

  /** A character of a written number: a digit, a sign, the decimal point
      or the fraction bar. */
  predicate Numeral(c: char)
  {
    IsDigit(c) || c == '-' || c == '+' || c == '.' || c == '/'
  }

  /** Text made only of numerals and white space. */
  predicate NumberText(s: string)
  {
    forall k :: 0 <= k < |s| ==> Numeral(s[k]) || IsSpace(s[k])
  }

  /** The white space strip() removes does not change what s is made of. */
  lemma StripNumber(s: string)
    ensures NumberText(Strip(s)) ==> NumberText(s)
  {
    var u := TrimStart(s);
    var t := TrimEnd(u);
    var off := |s| - |u|;
    if NumberText(t) {
      forall k | 0 <= k < |s|
        ensures Numeral(s[k]) || IsSpace(s[k])
      {
        if k >= off {
          assert s[k] == u[k - off];
          if k - off < |t| {
            assert u[k - off] == t[k - off];
          }
        }
      }
    }
  }

  /** An accepted signed integer is made of a sign and digits. */
  lemma SignedNumber(t: string)
    ensures ParseSigned(t).Some? ==> NumberText(t)
  {
    if ParseSigned(t).Some? && |t| > 0 && (t[0] == '-' || t[0] == '+') {
      assert forall k :: 1 <= k < |t| ==> t[k] == t[1..][k - 1];
    }
  }

  lemma DigitsParse(s: string)
    requires |s| > 0 && AllDigits(s)
    ensures ParseSigned(Strip(s)) == Some(DigitsValue(s))
  {
    NoSpaceStrip(s);
  }

  lemma NegativeParse(s: string)
    requires |s| > 1 && s[0] == '-' && AllDigits(s[1..])
    ensures ParseSigned(Strip(s)) == Some(-(DigitsValue(s[1..]) as int))
  {
    assert IsDigit(s[1..][|s| - 2]);
    NoSpaceStrip(s);
  }

  /** Python's int() of a string: only signs, digits and white space are
      accepted, a run of digits reads as its decimal value and a minus sign
      before it negates it. Underscores between digits and non-ASCII digits
      are not accepted here. */
  function ParseInt(s: string): (r: Option<int>)
    ensures r.Some? ==> NumberText(s)
    ensures |s| > 0 && AllDigits(s) ==> r == Some(DigitsValue(s))
    ensures |s| > 1 && s[0] == '-' && AllDigits(s[1..]) ==> r == Some(-(DigitsValue(s[1..]) as int))
  {
    SignedNumber(Strip(s));
    StripNumber(s);
    if |s| > 0 && AllDigits(s) then
      DigitsParse(s);
      ParseSigned(Strip(s))
    else if |s| > 1 && s[0] == '-' && AllDigits(s[1..]) then
      NegativeParse(s);
      ParseSigned(Strip(s))
    else
      ParseSigned(Strip(s))
  }

  lemma NoSpaceStrip(s: string)
    requires |s| > 0 && !IsSpace(s[0]) && !IsSpace(s[|s| - 1])
    ensures Strip(s) == s
  {
  }

  lemma {:induction false} TrimEndPadding(t: string, pad: string)
    requires |t| > 0 && !IsSpace(t[|t| - 1])
    requires forall k :: 0 <= k < |pad| ==> IsSpace(pad[k])
    ensures TrimEnd(t + pad) == t
    decreases |pad|
  {
    if |pad| == 0 {
      assert t + pad == t;
    } else {
      var shorter := pad[..|pad| - 1];
      assert (t + pad)[..|t + pad| - 1] == t + shorter;
      TrimEndPadding(t, shorter);
    }
  }

  /** int(str(i)) == i, also with trailing white space such as a line end. */
  lemma ParseIntText(i: int, pad: string)
    requires forall k :: 0 <= k < |pad| ==> IsSpace(pad[k])
    ensures ParseInt(IntText(i) + pad) == Some(i)
  {
    var t := IntText(i);
    assert !IsSpace(t[0]) && !IsSpace(t[|t| - 1]);
    assert TrimStart(t + pad) == t + pad;
    TrimEndPadding(t, pad);
    IntTextRoundTrip(i);
  }

  /** The fields written out with sep between consecutive ones. */
  function Join(fields: seq<string>, sep: char): string
  {
    if |fields| == 0 then ""
    else if |fields| == 1 then fields[0]
    else fields[0] + [sep] + Join(fields[1..], sep)
  }

  /** Prefixing a character to the first field prefixes it to the text. */
  lemma JoinPrefix(c: char, fields: seq<string>, sep: char)
    requires |fields| >= 1
    ensures Join([[c] + fields[0]] + fields[1..], sep) == [c] + Join(fields, sep)
  {
    var g := [[c] + fields[0]] + fields[1..];
    assert g[1..] == fields[1..];
  }

  /** Python's str.split(sep): the fields between occurrences of sep, none of
      which holds sep, and which joined with sep give back the text. */
  function Split(s: string, sep: char): (r: seq<string>)
    ensures |r| >= 1
    ensures forall i :: 0 <= i < |r| ==> sep !in r[i]
    ensures Join(r, sep) == s
  {
    if |s| == 0 then [""]
    else
      var tail := Split(s[1..], sep);
      if s[0] == sep then
        var r := [""] + tail;
        assert r[1..] == tail;
        assert [sep] + s[1..] == s;
        r
      else
        var r := [[s[0]] + tail[0]] + tail[1..];
        JoinPrefix(s[0], tail, sep);
        assert [s[0]] + s[1..] == s;
        assert forall i :: 1 <= i < |r| ==> r[i] == tail[i];
        r
  }

  lemma {:induction false} SplitWithout(s: string, sep: char)
    requires sep !in s
    ensures Split(s, sep) == [s]
    decreases |s|
  {
    if |s| > 0 {
      SplitWithout(s[1..], sep);
      assert [s[0]] + s[1..] == s;
    }
  }

  /** Splitting at the first separator: the text before it is the first field. */
  lemma {:induction false} SplitAtFirst(a: string, sep: char, b: string)
    requires sep !in a
    ensures Split(a + [sep] + b, sep) == [a] + Split(b, sep)
    decreases |a|
  {
    var s := a + [sep] + b;
    if |a| > 0 {
      assert s[1..] == a[1..] + [sep] + b;
      SplitAtFirst(a[1..], sep, b);
      var tail := Split(s[1..], sep);
      assert tail[0] == a[1..] && tail[1..] == Split(b, sep);
      assert s[0] == a[0] != sep;
      assert [a[0]] + a[1..] == a;
    } else {
      assert s == [sep] + b;
      assert s[1..] == b;
    }
  }

  /** Splitting the join of fields free of sep gives back the fields. */
  lemma {:induction false} SplitOfJoin(fields: seq<string>, sep: char)
    requires |fields| >= 1
    requires forall i :: 0 <= i < |fields| ==> sep !in fields[i]
    ensures Split(Join(fields, sep), sep) == fields
    decreases |fields|
  {
    if |fields| == 1 {
      SplitWithout(fields[0], sep);
    } else {
      SplitOfJoin(fields[1..], sep);
      SplitAtFirst(fields[0], sep, Join(fields[1..], sep));
      assert [fields[0]] + fields[1..] == fields;
    }
  }

  /** t appears in s starting at index i. */
  predicate OccursAt(s: string, t: string, i: int)
  {
    0 <= i <= |s| - |t| && s[i..i + |t|] == t
  }

  /** Away from the first position, t occurs in s exactly where it occurs in
      s without its first character, one place further on. */
  lemma OccurrenceShift(s: string, t: string)
    requires |s| > 0 && !OccursAt(s, t, 0)
    ensures (exists i :: OccursAt(s, t, i)) <==> exists j :: OccursAt(s[1..], t, j)
  {
    if j :| OccursAt(s[1..], t, j) {
      assert s[1..][j..j + |t|] == s[j + 1..j + 1 + |t|];
      assert OccursAt(s, t, j + 1);
    }
    if i :| OccursAt(s, t, i) {
      assert i > 0;
      assert s[1..][i - 1..i - 1 + |t|] == s[i..i + |t|];
      assert OccursAt(s[1..], t, i - 1);
    }
  }

  /** Python's `t in s` for strings, scanning s from the left: it holds
      exactly when t occurs somewhere in s. */
  function Contains(s: string, t: string): (found: bool)
    ensures found <==> exists i :: OccursAt(s, t, i)
    decreases |s|
  {
    if |t| <= |s| && s[..|t|] == t then
      assert OccursAt(s, t, 0);
      true
    else if |s| == 0 then
      false
    else
      OccurrenceShift(s, t);
      Contains(s[1..], t)
  }

  /** Text made only of numerals: no white space and no record separator. */
  predicate NumeralText(s: string)
  {
    forall k :: 0 <= k < |s| ==> Numeral(s[k])
  }

  lemma NumeralJoin(a: string, sep: string, b: string)
    requires NumeralText(a) && NumeralText(sep) && NumeralText(b)
    ensures NumeralText(a + sep + b)
  {
    var s := a + sep + b;
    forall k | 0 <= k < |s|
      ensures Numeral(s[k])
    {
      if k < |a| {
        assert s[k] == a[k];
      } else if k < |a| + |sep| {
        assert s[k] == sep[k - |a|];
      } else {
        assert s[k] == b[k - |a| - |sep|];
      }
    }
  }

  /** A fraction bar followed by digits does not end in ".0". */
  lemma RatioEnd(it: string, dt: string)
    requires |dt| > 0 && AllDigits(dt)
    ensures var s := it + ['/'] + dt; !(|s| >= 2 && s[|s| - 2..] == ".0")
  {
    var s := it + ['/'] + dt;
    if |dt| >= 2 {
      assert s[|s| - 2] == dt[|dt| - 2];
    } else {
      assert s[|s| - 2] == '/';
    }
  }

  /** str() of a float, with exact values: a fraction over 1 prints as
      Python prints an integral float ("33150.0"); any other fraction prints
      as "num/den", a format of this model only, which its own float() reads
      back exactly.
      The text is made of numerals only and ends in ".0" exactly for a
      fraction over 1. */
  function RatText(q: Rat): (s: string)
    ensures |s| > 0 && NumeralText(s)
    ensures q.den == 1 <==> |s| >= 2 && s[|s| - 2..] == ".0"
  {
    var it := IntText(q.num);
    if q.den == 1 then
      NumeralJoin(it, ".0", "");
      assert it + ".0" + "" == it + ".0";
      it + ".0"
    else
      var dt := NatText(q.den);
      RatioEnd(it, dt);
      NumeralJoin(it, "/", dt);
      it + ['/'] + dt
  }

  /** A number read by float() is made of numerals and white space. */
  lemma RatioNumber(t: string)
    ensures var parts := Split(t, '/');
      |parts| == 2 && ParseSigned(parts[0]).Some? && ParseNat(parts[1]).Some? ==> NumberText(t)
  {
    var parts := Split(t, '/');
    if |parts| == 2 && ParseSigned(parts[0]).Some? && ParseNat(parts[1]).Some? {
      SignedNumber(parts[0]);
      assert parts[1..] == [parts[1]];
      assert Join(parts[1..], '/') == parts[1];
      assert t == parts[0] + ['/'] + parts[1];
      forall k | 0 <= k < |t|
        ensures Numeral(t[k]) || IsSpace(t[k])
      {
        if k > |parts[0]| {
          assert t[k] == parts[1][k - |parts[0]| - 1];
        }
      }
    }
  }

  lemma WholeNumber(t: string)
    requires |t| >= 2 && t[|t| - 2..] == ".0"
    ensures ParseSigned(t[..|t| - 2]).Some? ==> NumberText(t)
  {
    SignedNumber(t[..|t| - 2]);
    if ParseSigned(t[..|t| - 2]).Some? {
      forall k | 0 <= k < |t|
        ensures Numeral(t[k]) || IsSpace(t[k])
      {
        if k < |t| - 2 {
          assert t[k] == t[..|t| - 2][k];
        } else {
          assert t[k] == t[|t| - 2..][k - |t| + 2];
        }
      }
    }
  }

  /** Python's float() of text written by RatText; other float syntax
      (exponents, "inf", longer decimals) is rejected. Whatever it accepts is
      made of numerals and white space. */
  function ParseRat(s: string): (r: Option<Rat>)
    ensures r.Some? ==> NumberText(s)
  {
    var t := Strip(s);
    StripNumber(s);
    if |t| >= 2 && t[|t| - 2..] == ".0" then
      WholeNumber(t);
      match ParseSigned(t[..|t| - 2])
      case Some(i) => Some(Of(i))
      case None => None
    else
      var parts := Split(t, '/');
      RatioNumber(t);
      if |parts| != 2 then None
      else
        match (ParseSigned(parts[0]), ParseNat(parts[1]))
        case (Some(n), Some(d)) => if d > 0 then Some(Fraction(n, d)) else None
        case _ => None
  }

  /** A whole value computed by the model's arithmetic prints as its digits
      followed by ".0", as Python prints an integral float. */
  lemma WholeQuotientText(n: int, d: int)
    requires d != 0 && Integral(n as real / d as real)
    ensures RatText(Quotient(n, d)) == IntText((n as real / d as real).Floor) + ".0"
  {
    var q := Quotient(n, d);
    assert q.den == 1;
    assert Value(q) == q.num as real;
  }

  /** The mean of fifteen conversions summing to 3000 is stored as "200.0". */
  lemma MeanTextExample()
    ensures RatText(Quotient(3000, 15)) == "200.0"
  {
    WholeQuotientText(3000, 15);
    assert (3000 as real / 15 as real).Floor == 200;
  }

  lemma IntegralTextRoundTrip(q: Rat)
    requires q.den == 1
    ensures ParseRat(RatText(q)) == Some(q)
  {
    var s := RatText(q);
    var it := IntText(q.num);
    assert s == it + ".0";
    NoSpaceStrip(s);
    assert s[..|s| - 2] == it;
    IntTextRoundTrip(q.num);
  }

  /** The text of a non-integral value: already stripped, not ending in
      ".0", and split by "/" into numerator and denominator. */
  lemma RatioTextShape(q: Rat)
    requires q.den != 1
    ensures var s := RatText(q);
      && Strip(s) == s
      && !(|s| >= 2 && s[|s| - 2..] == ".0")
      && Split(s, '/') == [IntText(q.num), NatText(q.den)]
  {
    var it, dt := IntText(q.num), NatText(q.den);
    var s := RatText(q);
    assert Numeral(s[0]) && Numeral(s[|s| - 1]);
    NoSpaceStrip(s);
    assert '/' !in it;
    assert '/' !in dt;
    SplitAtFirst(it, '/', dt);
    SplitWithout(dt, '/');
  }

  lemma RatioTextRoundTrip(q: Rat)
    requires q.den != 1
    ensures ParseRat(RatText(q)) == Some(q)
  {
    RatioTextShape(q);
    IntTextRoundTrip(q.num);
    NatTextRoundTrip(q.den);
  }

  /** The model's float() reads back every value the model's str() writes. */
  lemma RatTextRoundTrip(q: Rat)
    ensures ParseRat(RatText(q)) == Some(q)
  {
    if q.den == 1 {
      IntegralTextRoundTrip(q);
    } else {
      RatioTextRoundTrip(q);
    }
  }
}
